=== FILE: README.md ===
# CloudMind relay — a Dafny model of its routing core

CloudMind is a small relay server through which LLM-backed "nodes" (a
translator, an auditor, a conduit, …) exchange JSON envelopes. This project
models the parts of the relay that make decisions, and proves what those
decisions are:

- **`/node-communicate` routing** (`router.dfy`, `router_facts.dfy`). This is
  the step from an upstream model reply to the handler's answer.
  - The reply is cleaned of a Markdown fence (`fence.dfy`) and parsed.
  - A fixed chain of rules then applies, in this order:
    - init suppression;
    - acknowledgement rate limiting, with a regeneration nudge to the
      producing node;
    - the auditor's compliance relay, with a demerit when the auditor tries
      to relay to the translator;
    - the log append;
    - the unknown-destination nudge to the conduit;
    - the autonomous forward.
  - Anything that throws inside that block sends a demerit to the auditor.
  - `Router.Route` is a pure function. It takes the reply, `JSON.parse` as a
    parameter, the producing node's id, and the relay's state (registry,
    message log, acknowledgement cooldowns, autonomous mode).
  - It returns the HTTP status, or no answer at all; the POSTs the handler
    would send back to `/node-communicate`; and the new log and cooldown
    table.
  - `Router.Answer` is the same decision taken after the parse; `Route`
    applies it to the parse of the cleaned reply. The rules are stated in
    `router_facts.dfy` as scenarios over `Answer`, one per branch.
  - A POST the handler awaits can fail, and a failed POST throws into the
    same demerit path. An oracle `delivered` decides which POSTs complete.
- **Envelopes** (`envelope.dfy`):
  - the `walky_talky` default-fill and the admission rules of `/broadcast`
    and `/send`;
  - the corrective envelopes the relay builds itself: the regeneration
    nudge, the translator demerit, the node-not-found nudge and the parse
    demerit.
- **`retryWithBackoff`** (`backoff.dfy`): bounded retries with geometric
  waits. The action is modelled as a sequence of outcomes.
- **The registry tools** (`tools.dfy`): `cycleNodes`, `introspectRegistry`
  and `echoNode`.
- **The operator console** (`cli.dfy`): the command classifier, including the
  unanchored, greedy `send -f (.+) -n (.+)` pattern, and the chat exit check.
- **The log watcher** (`watch.dfy`): the read cursor of `pollMessages` and the
  line it prints for each message, including the messages whose line throws.

JSON values are modelled with the JavaScript meaning the relay gives them, in
`json.dfy`:
- truthiness;
- `===`;
- `String(v)` for property keys and template literals, and whether it
  throws (`Printable`: it does on an object with its own `toString` key);
- `.` reads that throw on `undefined` and `null`;
- optional chaining `?.`.

This keeps the source's exception paths in the model. A missing header, a
`null` reply, or a non-string `intent.action` throw, as they do in the
source. So does converting an object with its own `toString` key, or an
array holding one, to a key or a text. The model checks `Printable` at each
place where the source converts an id, before it uses the text:
- the `message_id` of a broadcast or a direct send, after the push
  (cloudMind.js:280 and 300), and the destination of a send (cloudMind.js:288);
- the acknowledgement cooldown lookup (cloudMind.js:387) and the nudge's
  `origin_node` and node id (cloudMind.js:91);
- the auditor's destination lookup (cloudMind.js:466) and its missing-original
  line (cloudMind.js:482);
- the destination lookup (cloudMind.js:489) and the forward's console line
  (cloudMind.js:549);
- the registry lookup of `echoNode` (tools.js:27);
- the four header fields the log watcher prints.

`text.dfy` gives `trim`, `\s` and the `.` of regular expressions their
ECMAScript character sets.

Some behaviour is kept exactly as the source has it, even where it looks
unintended:
- The regeneration nudge is POSTed to the node that produced the
  acknowledgement. Its header names that node as origin and the
  acknowledgement's `origin_node` as destination.
- The demerit of the exception path is POSTed to the auditor. Its header
  names the auditor as origin and the producing node as destination.
- An approved auditor relay sends the original message to its destination.
  It then logs the auditor's own envelope and routes it as if it were
  addressed to that destination. In autonomous mode the auditor's envelope
  is forwarded there too, if it has a header.
- `find` may match a falsy log entry (a reply of `0`, `false` or `""` is
  logged before it throws). The relay skips such an entry, and the envelope
  goes to its own destination.
- "Addressed to the translator" is decided with `===` against the string
  "core:trn:main", while the registry and the receiving handler convert the
  id to a property key. An array `["core:trn:main"]` as destination passes
  both guards and is forwarded, and its id converts to the translator's.
- `retryWithBackoff(fn, retries)` invokes `fn` at most `retries` times. It
  also waits after the final failed attempt before it gives up.
- An envelope without a header is logged first. For an unregistered
  destination the handler then reads its `header.origin_node` and throws.
  For a registered destination in autonomous mode, the console line before
  the forward reads its `header.message_id` and throws. In both cases the
  envelope is both logged and demerited. For a registered destination with
  autonomous mode off, nothing reads the header, and the envelope is logged
  and answered with the raw reply.

## Model

| member | source | states |
|---|---|---|
| Fence.StripFence | cloudMind.js:366 | the text handed to `JSON.parse` is trimmed and no longer than the reply; a reply with neither an opening "```json" nor a closing "```" is only trimmed |
| Fence.StripOpenOf | cloudMind.js:366 | the opening replacement removes "```json" and the white space after it, and nothing of the text that follows |
| Fence.StripCloseOf | cloudMind.js:366 | the closing replacement removes a final "```" and all white space before it, and nothing of the text in front |
| Fence.FencedRoundTrip | cloudMind.js:366 | a trimmed body wrapped in "```json", any white space, and "```" is cleaned back to exactly that body |
| Fence.FencedLinesRoundTrip | cloudMind.js:366 | "```json\n" + body + "\n```" is cleaned to the body, for every trimmed body |
| Fence.BareFenceKept | cloudMind.js:366 | an opening "```" without "json" is not removed; only the closing fence goes |
| Fence.FencedDecodesAsBody | cloudMind.js:219 | the translator's identical clean-up gives a fenced reply and its bare body the same text to parse |
| Envelope.DefaultFill | cloudMind.js:272-277 | throws on a null, undefined or primitive body; an array body stays as it is. For an object, a falsy `resources` becomes `{ walky_talky: default }`. An object `resources` gains the default `walky_talky` only when its own is falsy. Every other field, at both levels, is kept. |
| Envelope.DefaultFillIdempotent | cloudMind.js:292-297 | filling an already filled message changes nothing |
| Envelope.Broadcast | cloudMind.js:270-282 | an object or array body is filled and appended; any other body throws before the push. The reply lists the registered node ids exactly when the body is an object with a header whose `message_id` converts to a text; otherwise the request fails, after the push for an array body, a headerless object or an unconvertible id. |
| Envelope.Send | cloudMind.js:284-302 | a destination that does not convert to a key fails the request with the log unchanged; a convertible, unregistered one is answered 400 with the log unchanged. The body is appended, filled, exactly when it is an object with a header whose destination converts and is registered. It is then answered `sent` to that destination iff its `message_id` converts, and the request fails otherwise. |
| Envelope.UnprintableIdLoggedThenFails | cloudMind.js:270-302 | a message id that does not convert to a text fails a broadcast, and a send to a registered destination, only after the filled message was appended: the console line that shows the id follows the push |
| Envelope.RegenerateNudgeAddressing | cloudMind.js:47-84 | the nudge's header runs from `origin` to `destination`; an undefined parent id becomes null through the parameter default |
| Envelope.TranslatorDemeritAddressing | cloudMind.js:418-455 | the translator demerit runs from the relay server to the auditor, keeps the routed envelope's thread when it is truthy, else a fresh one, and names its message as parent |
| Envelope.NodeNotFoundNudgeAddressing | cloudMind.js:494-531 | the node-not-found nudge runs from the relay router to the conduit and names the unknown node, as a string, in its task description |
| Router.AckTest | cloudMind.js:382 | an envelope is an acknowledgement iff `intent.action` is a string whose lower-case form contains "ack"; the test throws iff the action is neither missing nor a string |
| Router.FindFrom | cloudMind.js:409 | `messageLog.find` yields the first entry carrying the id. It yields nothing only when no entry carries it. It throws only when a null entry comes before any match. |
| Router.Deliver | cloudMind.js:487-554 | the envelope is appended exactly once. A destination that does not convert to a key throws right after the append, with nothing sent. An unregistered destination answers `unknown_node_nudged` and never falls through. A registered one never returns early. At most one POST is added. In autonomous mode, for a convertible, registered destination that is not the string id of the translator, the forward goes out iff the envelope has a header whose `message_id` converts; otherwise the block throws. |
| Router.RelayOriginal | cloudMind.js:410-476 | once the auditor's relay is approved and a truthy original found, a demerit or a 400 leaves the log unchanged, and so does a destination that throws at the registry lookup. The only answers given early are `demerit_issued`, the 400 and the unknown-node nudge. At most two POSTs go out, and none has the node id `===` "core:trn:main" unless it is the producer. |
| Router.AuditorGate | cloudMind.js:403-484 | without the auditor's approval the envelope goes straight to delivery. With it, a demerit or a 400 leaves the log unchanged, and no POST has the node id `===` "core:trn:main" unless it goes to the producer. The gate never answers early with anything but a demerit, a 400 or the unknown-node nudge. |
| Router.AckNudge | cloudMind.js:386-394 | a repeated acknowledgement logs nothing and moves no timestamp. Without a header it throws before any POST. With one it sends exactly one POST, addressed to the producing node, and ends without an answer iff that POST completes and both the node id and the header's `origin_node` convert to a text for the closing console line of `regenerateNudge` (cloudMind.js:91); otherwise it throws. |
| Router.AckGate | cloudMind.js:381-397 | an acknowledgement whose `message_id` does not convert to a key throws at the cooldown lookup with nothing changed. One outside the window is timestamped `now`; anything else leaves the cooldowns unchanged. The unanswered path logs nothing and sends exactly one POST, to the producing node. |
| Router.RouteBlock | cloudMind.js:370-555 | an unparseable reply throws with nothing changed; the log grows by at most the envelope; `init_ack_handled` is returned iff the envelope is an init message, and then with nothing changed |
| Router.Finish | cloudMind.js:556-602 | a thrown block adds exactly one demerit POST to the auditor and answers with the raw reply, or 500 if that POST fails too; a fall-through answers with the raw reply |
| Router.Answer | cloudMind.js:370-602 | once the reply is parsed: at most three POSTs, none with the node id `===` "core:trn:main" except to the producing node itself, and a 500 answer only after a POST that failed |
| Router.Route | cloudMind.js:366-605 | the whole handler: at most three POSTs are sent, none with the node id `===` "core:trn:main" except to the producing node itself, and a 500 answer only follows a POST that failed |
| Router.RouteState | cloudMind.js:370-555 | the log grows by at most the routed envelope, and the cooldown table at most by that envelope's timestamp; a reply that does not parse changes neither |
| Router.RouteInit | cloudMind.js:375-378 | `init_ack_handled` is answered iff the reply parses to a non-null init envelope, and then nothing is sent, logged or recorded |
| RouterFacts.InitSuppressed | cloudMind.js:375-378 | an init envelope is answered 200 `init_ack_handled` with no POST, no log append and no cooldown write |
| RouterFacts.RepeatedAckNudgesProducer | cloudMind.js:385-395 | a repeated acknowledgement inside the window leaves log and cooldowns unchanged. When its id, the producer and the header's `origin_node` convert to texts, it gets no HTTP answer and exactly one regeneration nudge is sent, to the producing node, with the acknowledgement's id as parent. When only the nudge's console line (cloudMind.js:91) throws, the nudge is sent and then a demerit. When the id throws at the lookup, only the demerit is sent. |
| RouterFacts.RepeatedAckWithoutHeaderDemerited | cloudMind.js:393 | a repeated acknowledgement without a header throws on `header.origin_node` and is demerited instead |
| RouterFacts.AckRecorded | cloudMind.js:386-396 | an acknowledgement outside the window is timestamped with the current time; one whose id does not convert to a key throws at the lookup with nothing changed |
| RouterFacts.CooldownWindow | cloudMind.js:386-388 | a recorded truthy timestamp holds acknowledgements back exactly while less than 5000 ms have passed |
| RouterFacts.AckTwiceWithinWindow | cloudMind.js:381-397 | the same acknowledgement routed twice within 5000 ms logs nothing the second time. The second time gets no answer iff its id, the producer and its `origin_node` convert to texts, and, when the id converts, the first POST goes to the producer. |
| RouterFacts.AuditorTranslatorDemerit | cloudMind.js:411-463 | an approved relay of an original addressed to the translator sends one demerit to the auditor, answers `demerit_issued`, and logs nothing |
| RouterFacts.AuditorInvalidDestination | cloudMind.js:466-469 | an approved relay of an original with a falsy destination, or a convertible unregistered one, is answered 400, with no POST and no log append. A truthy destination that does not convert to a key throws at the lookup and only the demerit is sent. |
| RouterFacts.AuditorRelays | cloudMind.js:411-477 | an approved relay to a registered destination that converts sends the original there. It then logs the auditor's envelope and, in autonomous mode, forwards it to the original's destination, which overwrote its own. An auditor envelope without a header, or whose `message_id` does not convert for the forward's console line (cloudMind.js:549), is demerited instead of forwarded. A destination that does not convert throws at the lookup: only the demerit is sent and nothing is logged. |
| RouterFacts.AuditorFalsyOriginalSkipped | cloudMind.js:408-411 | a falsy entry matched by `find` is not relayed: the envelope is delivered to its own destination and logged |
| RouterFacts.AuditorOriginalMissing | cloudMind.js:480-483 | an approved relay whose original is not in the log is routed like any other envelope, when its `original_message_id` converts to a text; otherwise the warning line throws before anything is logged |
| RouterFacts.AuditorLookupThrows | cloudMind.js:409 | a null log entry met by the lookup makes it throw, and the auditor is demerited; the relay itself never logs `null` |
| RouterFacts.UnknownDestination | cloudMind.js:487-542 | an envelope for an unregistered destination is logged once. A convertible destination is answered `unknown_node_nudged`, and a node-not-found nudge goes to the conduit iff the envelope comes from the conduit. One that does not convert throws at the lookup and is demerited. |
| RouterFacts.HeaderlessLoggedAndDemerited | cloudMind.js:487-493 | an envelope without a header is logged, then throws on `header.origin_node` and is demerited |
| RouterFacts.ForwardWhenRegistered | cloudMind.js:487-554 | an envelope for a registered destination is logged and answered with the raw reply. It is forwarded there iff the destination converts to a key, autonomous mode is on, the destination is not `===` the translator, and it has a header whose `message_id` converts. A destination that does not convert, or a forward whose console line throws, yields the demerit instead; no POST at all goes out iff the destination converts and no forward is due. |
| RouterFacts.ArrayDestinationReachesTranslator | cloudMind.js:544-551 | a destination `["core:trn:main"]` passes the `===` guard and the registry lookup in autonomous mode, and an envelope whose `message_id` converts is forwarded to an id that converts to the translator's |
| RouterFacts.UnparseableDemerited | cloudMind.js:556-602 | an unparseable reply sends exactly one demerit to the auditor and changes no state; the answer is the raw reply iff that POST completes, 500 otherwise |
| RouterFacts.NullReplyDemerited | cloudMind.js:372-375 | a reply that parses to `null` throws on its header and is demerited like a parse failure |
| RouterFacts.NonStringActionDemerited | cloudMind.js:382 | an `intent.action` that is present but not a string makes `toLowerCase` throw, and the reply is demerited |
| RouterFacts.DemeritEnvelopeHeader | cloudMind.js:559-598 | the exception demerit is POSTed to the auditor. Its header claims the auditor as origin and the producing node as destination. Its parent is null. |
| Backoff.RetryFrom | utils.js:7-23 | with no attempt left the loop throws "Failed after N retries" without invoking anything. Otherwise it invokes the action at least once more and at most up to the `retries`-th time. |
| Backoff.RetryFromShape | utils.js:7-23 | every wait follows a transient failure of the invocation before it, and each wait is the previous one times the factor. A returned value is the last invocation's success. A rethrown error is the last invocation's non-transient failure. There is one wait per invocation when the retries run out, and one fewer otherwise. |
| Backoff.RetryShape | utils.js:3-21 | a value returned by `retryWithBackoff` is what its last invocation resolved with, and there are never more waits than invocations |
| Backoff.RetryWithBackoff | utils.js:3-26 | the source's loop, with its mutable attempt counter and delay, computes the same run as the recursive definition |
| Backoff.RetryBounds | utils.js:7-25 | with `retries` of 0 or less nothing is invoked and it throws at once. Otherwise it invokes 1 to `retries` times. Wait `j` is `delay * factor^j`. |
| Backoff.GeometricIsPow | utils.js:19-20 | the `j`-th of the waits is the first wait times the factor to the power `j` |
| Backoff.SucceedsAfterTransientFailures | utils.js:8-21 | the first success after transient failures is returned unchanged, with one wait per failure and no further invocation |
| Backoff.ThreeOutagesThenSuccess | utils.js:3-21 | with the defaults, three 5xx failures then a success: four invocations, waits 1000, 2000, 4000 |
| Backoff.ExhaustsFrom | utils.js:7-25 | transient failures on every remaining attempt use up all of them, with one wait after each, growing by the factor |
| Backoff.PersistentOutageExhausts | utils.js:7-25 | for any `retries` of 0 or more, delay and factor: a transient failure on every attempt gives exactly `retries` invocations and `retries` waits (the last after the final attempt), then "Failed after N retries" |
| Backoff.PersistentOutageDefaults | utils.js:3-25 | with the defaults, a host that never answers: five invocations, waits 1000 to 16000, then "Failed after 5 retries" |
| Backoff.ClientErrorNotRetried | utils.js:11-16 | a non-transient error is rethrown unchanged after one invocation, without waiting |
| Tools.PingedTwice | tools.js:7-11 | pinging a node twice is pinging it once with the second time |
| Tools.CycleNodes | tools.js:4-14 | the result has exactly the input's node ids, and each node keeps every field, with status "pinged" and its own `last_ping` |
| Tools.CycleTwice | tools.js:4-14 | cycling twice equals cycling once with the second cycle's timestamps |
| Tools.CycleTwiceAt | tools.js:7-11 | one node after two cycles equals that node after the second cycle alone |
| Tools.IntrospectRegistry | tools.js:17-23 | one summary per node and no node twice; each carries the node's id and status, and `assistant_id_present` iff its `assistant_id` is truthy |
| Tools.IntrospectAfterCycle | tools.js:4-23 | every summary taken after a cycle reports "pinged", and every node is summarised |
| Tools.EchoNode | tools.js:26-37 | an id that does not convert to a key throws; a convertible unregistered one yields only the "Node '…' not found." error; a registered one yields its id, status, `assistant_id` presence and the timestamp |
| Tools.CycledNode | tools.js:7-11 | a node after a cycle reports the status "pinged" and keeps its `assistant_id` |
| Tools.EchoAfterCycle | tools.js:4-37 | after a cycle the same ids echo, each as "pinged", with the same `assistant_id` presence |
| Cli.RunEnd | cloudMindCLI.js:97 | the node group stops at the first line terminator or the end of the line |
| Cli.LastFlag | cloudMindCLI.js:97 | backtracking keeps the last " -n " at or below the bound that leaves a match, and none later works |
| Cli.FindSend | cloudMindCLI.js:97 | the match starts at the leftmost position where the pattern matches, with the greedy flag position |
| Cli.ClassifyTrimmed | cloudMindCLI.js:91-104 | each exact command selects its action iff the line equals it. `send` is chosen iff no exact command matched and the pattern matches somewhere. Its file and node are non-empty and single-line. |
| Cli.Classify | cloudMindCLI.js:88-105 | the same, stated of the line after `trim` |
| Cli.PaddingIgnored | cloudMindCLI.js:89 | white space around a command does not change what it selects |
| Cli.SendLineClassified | cloudMindCLI.js:97-100 | before trimming, the pattern takes `send -f <file> -n <node>` apart into exactly that file and that node, when both are single-line and the node holds no " -n " |
| Cli.SendRoundTrip | cloudMindCLI.js:97-100 | `send -f <file> -n <node>` is classified as sending exactly that file to that node, when the node holds no " -n " and the line survives trimming |
| Cli.GreedyFile | cloudMindCLI.js:97-99 | with two flags the file is greedy: "send -f a -n b -n c" sends "a -n b" to "c" |
| Cli.ChatInput | cloudMindCLI.js:65 | chat is left iff the untrimmed input is exactly "exit" or "quit"; every other input is sent as typed |
| Watch.Shown | cloudMindRtWatch.js:20-23 | a displayed field is the header's value when truthy, else its fallback, and is never falsy |
| Watch.Describe | cloudMindRtWatch.js:19-37 | describing a message throws iff it does not show: it is null, or a shown field is an object with its own `toString` key. The id, sender, recipient and type shown are the header's fields with their `\|\|` fallbacks. A sender "human" takes the incoming arrow. Otherwise a recipient "human" takes the outgoing one. A missing header shows "???" and "unknown". |
| Watch.DescribeAll | cloudMindRtWatch.js:18-38 | at most one line is printed per message, and one for every message when nothing throws |
| Watch.DescribeAllShape | cloudMindRtWatch.js:18-38 | the printed lines are those of the first messages, in order; nothing throws iff every message shows, and otherwise printing stops at a message that does not show |
| Watch.PollMessages | cloudMindRtWatch.js:12-44 | only messages from `lastSeen` on are printed, in order. The cursor moves to the log's length iff all of them printed. A failed fetch prints nothing and keeps the cursor. |
| Watch.ToStringKeyStalls | cloudMindRtWatch.js:18-40 | when the first unseen message has a `message_id` that is an object with its own `toString` key, the poll prints nothing and keeps its cursor, so the next poll stops there again |
| Watch.DescribeAllLines | cloudMindRtWatch.js:18-38 | when every message shows (none is null, and no shown field is an object with its own `toString` key), nothing throws and every message is printed, in order |
| Watch.PollGrown | cloudMindRtWatch.js:14-40 | a poll of a log that extends what was seen, and whose messages all show, prints exactly the lines of the new messages and moves the cursor to the log's end |
| Watch.LinesAppend | cloudMindRtWatch.js:18-38 | the lines of two logs one after the other are the lines of the first followed by those of the second |
| Watch.PollsPrintEachOnce | cloudMindRtWatch.js:17-40 | over an append-only log whose messages all show, successive polls print every new message exactly once, in log order, and end with the cursor at the last log's length |

## Left out

- Envelope.DefaultFill: the source sets a named property on an array in two cases, and the model drops it in both, because an array's named properties never appear in its JSON. On an array body it sets `resources`. On an object body whose `resources` is an array it sets `walky_talky` on that array.
- The Express server, axios and the OpenAI thread, run and message calls (cloudMind.js:186-217, 334-363) are left out. The model reply is an input, and POSTs are records that are never executed.
- The uncapped run-status polling loops and the unused `pollRunStatusWithCap` (cloudMind.js:34-45) are left out. They only wait.
- `JSON.parse` is a parameter `parse`. JSON numbers are integers; fractions, NaN and exponent formatting are not modelled.
- uuid and `Date` are parameters. `Router.Context` carries one `Date.now()` and one ISO timestamp per handler call, plus the uuid-derived id suffixes. Upper-casing of the task-id suffix is the supplier's business.
- Console output, ANSI colours, the translator's prompt text, readline, `fs`, and the watcher's 1500 ms timer are left out. Printing is a returned list of lines.
- Several handlers are outside the routing core and are left out:
  - `/register`, `/messages`, `/nodes`, `/generate-id` and `/` only store or return state.
  - `/autonomous-mode` (cloudMind.js:115-172) toggles the mode and fires an init envelope. That init envelope is the one `RouterFacts.InitSuppressed` shows is answered without routing.
  - `/translator-relay` (cloudMind.js:174-268) runs the translator and POSTs its envelope to the auditor. Its fence clean-up is covered by `Fence.FencedDecodesAsBody`.
- The admission check at the top of `/node-communicate` (cloudMind.js:327-329) is left out. Prompt, node id and a registered assistant are needed only to call the model.
- Prototype lookups are not modelled, in the registry or in the acknowledgement cooldown table. Both are maps of their own keys.
  - In JavaScript `nodeRegistry['constructor']` is truthy.
  - A `message_id` of `"__proto__"` makes `ackCooldowns[messageId]` truthy, and the write at cloudMind.js:396 is swallowed. Router.AckGate does not model this.
- Interleavings of concurrent handlers are not modelled, and neither are POSTs that never settle. Each handler call is one atomic step.
- Router.Route: a POST either completes or fails, as the oracle `delivered` says. A POST that never settles leaves the request hanging in the source; the model has no such case.
- Text.Lower: only ASCII capitals and the KELVIN SIGN are lower-cased. Every other character keeps its identity; its true lower-case form is never "a", "c" or "k", so the acknowledgement test is unaffected.
- Tools.IntrospectRegistry: the order of the summaries is left open, because a Dafny map does not keep the insertion order `Object.entries` follows.
- Watch.PollMessages: a response whose data is not an array makes `slice` or `forEach` throw in the source. It is folded into `FetchFailed`, which has the same effect.
- Json.ToString: is total. For an object with its own `toString` key, and an array holding one, it gives the text "[object Object]", where JavaScript throws a TypeError. Every member that converts an id checks `Json.Printable` first and takes the exception path there (the sites are listed above), so that text is never used. The conversions at cloudMind.js:390 and 490 come after lookups of the same id at 387 and 489 and cannot throw on their own; the one at cloudMind.js:479 is in an else branch that line 466 makes unreachable.
- Backoff.RetryFrom: errors are records with an optional code and status. A thrown non-object (such as `throw null`, whose `.code` read would itself throw) is not modelled.

=== FILE: backoff.dfy ===
/**
 `retryWithBackoff` (utils.js:3-26), which wraps every OpenAI request of the
 relay: call the action, and on a transient failure wait and call again,
 the wait growing by a constant factor, until the attempts run out.

 The action is an oracle `call`: `call(k)` is what its `k`-th invocation
 (counting from 0) resolves or rejects with. Waits are recorded, not slept.
 */
module Backoff {
  import opened Wrappers

  /** What a rejected action carries: `error.code` and `error.response?.status`. */
  datatype Error = Error(code: Option<string>, status: Option<int>)

  datatype Attempt<T> = Succeeded(value: T) | Failed(error: Error)

  /** How the retry loop ends when it does not return a value. */
  datatype Failure =
    | Rethrown(error: Error)          // a non-transient error, thrown on unchanged
    | RetriesExhausted(retries: int)  // "Failed after N retries"

  datatype Result<T> = Returned(value: T) | Threw(failure: Failure)

  /** One run of the loop: its result, how many times the action was invoked, and the waits in order. */
  datatype Run<T> = Run(result: Result<T>, invocations: nat, waits: seq<int>)

  const DefaultRetries: int := 5
  const DefaultDelay: int := 1000
  const DefaultFactor: int := 2

  /** A connection reset, an unresolvable host, or an HTTP status of 500 or more. */
  predicate Retryable(e: Error) {
    e.code == Some("ECONNRESET") || e.code == Some("ENOTFOUND") || (e.status.Some? && e.status.value >= 500)
  }

  function Pow(b: int, n: nat): int {
    if n == 0 then 1 else b * Pow(b, n - 1)
  }

  /** `n` waits starting at `first`, each `factor` times the one before. */
  function Geometric(first: int, factor: int, n: nat): seq<int>
    decreases n
  {
    if n == 0 then [] else [first] + Geometric(first * factor, factor, n - 1)
  }

  /**
   The loop from iteration `attempt` on, with `currentDelay` the next wait.
   Every iteration invokes the action once; a transient failure is followed
   by a wait even when it was the last attempt.
   */
  function RetryFrom<T>(call: nat -> Attempt<T>, retries: int, factor: int, attempt: nat, currentDelay: int): (r: Run<T>)
    ensures attempt >= retries ==> r == Run(Threw(RetriesExhausted(retries)), attempt, [])
    ensures attempt < retries ==> attempt < r.invocations <= retries
    decreases retries - attempt
  {
    if attempt >= retries then Run(Threw(RetriesExhausted(retries)), attempt, [])
    else
      match call(attempt)
      case Succeeded(v) => Run(Returned(v), attempt + 1, [])
      case Failed(e) =>
        if !Retryable(e) then Run(Threw(Rethrown(e)), attempt + 1, [])
        else
          var rest := RetryFrom(call, retries, factor, attempt + 1, currentDelay * factor);
          Run(rest.result, rest.invocations, [currentDelay] + rest.waits)
  }

  /**
   What any run of the loop looks like: a result other than "retries
   exhausted" comes from the last invocation, every wait follows a transient
   failure of the invocation before it, and the waits grow by the factor.
   */
  lemma {:induction false} RetryFromShape<T>(call: nat -> Attempt<T>, retries: int, factor: int, attempt: nat, currentDelay: int)
    ensures var r := RetryFrom(call, retries, factor, attempt, currentDelay);
            && (r.result.Threw? && r.result.failure.RetriesExhausted? ==>
                  r.result.failure.retries == retries && |r.waits| == r.invocations - attempt)
            && (!(r.result.Threw? && r.result.failure.RetriesExhausted?) ==>
                  attempt < r.invocations && |r.waits| == r.invocations - attempt - 1)
            && r.waits == Geometric(currentDelay, factor, |r.waits|)
            && (forall j :: attempt <= j < attempt + |r.waits| ==> call(j).Failed? && Retryable(call(j).error))
            && (r.result.Returned? ==> call(r.invocations - 1) == Succeeded(r.result.value))
            && (r.result.Threw? && r.result.failure.Rethrown? ==>
                  call(r.invocations - 1) == Failed(r.result.failure.error) && !Retryable(r.result.failure.error))
    decreases retries - attempt
  {
    if attempt < retries && call(attempt).Failed? && Retryable(call(attempt).error) {
      RetryFromShape(call, retries, factor, attempt + 1, currentDelay * factor);
      var rest := RetryFrom(call, retries, factor, attempt + 1, currentDelay * factor);
      assert RetryFrom(call, retries, factor, attempt, currentDelay).waits == [currentDelay] + rest.waits;
    }
  }

  /** `retryWithBackoff(fn, retries, delay, factor)`. */
  function Retry<T>(call: nat -> Attempt<T>, retries: int, delay: int, factor: int): Run<T> {
    RetryFrom(call, retries, factor, 0, delay)
  }

  /** A run preceded by the waits of earlier iterations. */
  function AfterWaits<T>(waits: seq<int>, r: Run<T>): Run<T> {
    Run(r.result, r.invocations, waits + r.waits)
  }

  /** How the loop ends at iteration `attempt`, after the waits of earlier iterations. */
  lemma RetryEnds<T>(call: nat -> Attempt<T>, retries: int, factor: int, attempt: nat, currentDelay: int, waits: seq<int>)
    ensures attempt >= retries ==>
              AfterWaits(waits, RetryFrom(call, retries, factor, attempt, currentDelay))
              == Run(Threw(RetriesExhausted(retries)), attempt, waits)
    ensures attempt < retries && call(attempt).Succeeded? ==>
              AfterWaits(waits, RetryFrom(call, retries, factor, attempt, currentDelay))
              == Run(Returned(call(attempt).value), attempt + 1, waits)
    ensures attempt < retries && call(attempt).Failed? && !Retryable(call(attempt).error) ==>
              AfterWaits(waits, RetryFrom(call, retries, factor, attempt, currentDelay))
              == Run(Threw(Rethrown(call(attempt).error)), attempt + 1, waits)
  {
    assert waits + [] == waits;
  }

  /** A value is returned only by the invocation that produced it, and no wait comes without an invocation. */
  lemma RetryShape<T>(call: nat -> Attempt<T>, retries: int, delay: int, factor: int)
    ensures var r := Retry(call, retries, delay, factor);
            && (r.result.Returned? ==> r.invocations > 0 && call(r.invocations - 1) == Succeeded(r.result.value))
            && |r.waits| <= r.invocations
  {
    RetryFromShape(call, retries, factor, 0, delay);
  }

  /** A transient failure moves one wait from the loop still to run to the waits already made. */
  lemma RetryStep<T>(call: nat -> Attempt<T>, retries: int, factor: int, attempt: nat, currentDelay: int, waits: seq<int>)
    requires attempt < retries && call(attempt).Failed? && Retryable(call(attempt).error)
    ensures AfterWaits(waits, RetryFrom(call, retries, factor, attempt, currentDelay))
            == AfterWaits(waits + [currentDelay], RetryFrom(call, retries, factor, attempt + 1, currentDelay * factor))
  {
    var rest := RetryFrom(call, retries, factor, attempt + 1, currentDelay * factor);
    assert RetryFrom(call, retries, factor, attempt, currentDelay) == AfterWaits([currentDelay], rest);
    assert waits + ([currentDelay] + rest.waits) == (waits + [currentDelay]) + rest.waits;
  }

  /** The same loop, written as the source writes it. */
  method RetryWithBackoff<T>(call: nat -> Attempt<T>, retries: int, delay: int, factor: int)
    returns (result: Result<T>, invocations: nat, waits: seq<int>)
    ensures Run(result, invocations, waits) == Retry(call, retries, delay, factor)
  {
    var attempt: nat := 0;
    var currentDelay := delay;
    waits := [];
    while attempt < retries
      invariant Retry(call, retries, delay, factor) == AfterWaits(waits, RetryFrom(call, retries, factor, attempt, currentDelay))
      decreases retries - attempt
    {
      match call(attempt)
      case Succeeded(v) =>
        RetryEnds(call, retries, factor, attempt, currentDelay, waits);
        return Returned(v), attempt + 1, waits;
      case Failed(e) =>
        if !Retryable(e) {
          RetryEnds(call, retries, factor, attempt, currentDelay, waits);
          return Threw(Rethrown(e)), attempt + 1, waits;
        }
        RetryStep(call, retries, factor, attempt, currentDelay, waits);
        waits := waits + [currentDelay];
        currentDelay := currentDelay * factor;
        attempt := attempt + 1;
    }
    RetryEnds(call, retries, factor, attempt, currentDelay, waits);
    result, invocations := Threw(RetriesExhausted(retries)), attempt;
  }

  /**
   Whatever the action does, it is invoked at most `retries` times, and
   between two invocations the loop always waits, longer each time by the
   factor.
   */
  lemma RetryBounds<T>(call: nat -> Attempt<T>, retries: int, delay: int, factor: int)
    ensures var r := Retry(call, retries, delay, factor);
            && (retries <= 0 ==> r == Run(Threw(RetriesExhausted(retries)), 0, []))
            && (retries > 0 ==> 0 < r.invocations <= retries)
            && r.invocations - 1 <= |r.waits| <= r.invocations
            && (forall j :: 0 <= j < |r.waits| ==> r.waits[j] == delay * Pow(factor, j))
  {
    var r := Retry(call, retries, delay, factor);
    RetryFromShape(call, retries, factor, 0, delay);
    GeometricIsPow(delay, factor, |r.waits|);
  }

  /** The `j`-th wait is the first one times `factor` to the power `j`. */
  lemma {:induction false} GeometricIsPow(first: int, factor: int, n: nat)
    ensures |Geometric(first, factor, n)| == n
    ensures forall j :: 0 <= j < n ==> Geometric(first, factor, n)[j] == first * Pow(factor, j)
    decreases n
  {
    if n > 0 {
      GeometricIsPow(first * factor, factor, n - 1);
      forall j | 0 < j < n
        ensures Geometric(first, factor, n)[j] == first * Pow(factor, j)
      {
        calc {
          Geometric(first, factor, n)[j];
          Geometric(first * factor, factor, n - 1)[j - 1];
          first * factor * Pow(factor, j - 1);
          first * (factor * Pow(factor, j - 1));
          first * Pow(factor, j);
        }
      }
    }
  }

  /** The first successful invocation is returned, after one wait per earlier transient failure. */
  lemma {:induction false} SucceedsAfterTransientFailures<T>(call: nat -> Attempt<T>, retries: int, factor: int,
                                                             attempt: nat, currentDelay: int, k: nat)
    requires attempt <= k < retries
    requires forall j :: attempt <= j < k ==> call(j).Failed? && Retryable(call(j).error)
    requires call(k).Succeeded?
    ensures RetryFrom(call, retries, factor, attempt, currentDelay) == Run(Returned(call(k).value), k + 1, RetryFrom(call, retries, factor, attempt, currentDelay).waits)
    ensures |RetryFrom(call, retries, factor, attempt, currentDelay).waits| == k - attempt
    decreases k - attempt
  {
    if attempt < k {
      assert call(attempt).Failed? && Retryable(call(attempt).error);
      SucceedsAfterTransientFailures(call, retries, factor, attempt + 1, currentDelay * factor, k);
    }
  }

  /**
   With the defaults, three 5xx replies and then a success: four
   invocations, waits of 1, 2 and 4 seconds, and the value returned.
   */
  lemma ThreeOutagesThenSuccess(v: int)
    ensures var call := (k: nat) => if k < 3 then Failed(Error(None, Some(503))) else Succeeded(v);
            Retry(call, DefaultRetries, DefaultDelay, DefaultFactor) == Run(Returned(v), 4, [1000, 2000, 4000])
  {
    var call := (k: nat) => if k < 3 then Failed(Error(None, Some(503))) else Succeeded(v);
    SucceedsAfterTransientFailures(call, DefaultRetries, DefaultFactor, 0, DefaultDelay, 3);
    var r := Retry(call, DefaultRetries, DefaultDelay, DefaultFactor);
    assert Pow(2, 1) == 2 && Pow(2, 2) == 4;
    assert r.waits == [1000, 2000, 4000];
  }

  /**
   Transient failures on every attempt from `attempt` on exhaust the loop:
   every remaining attempt is made, each followed by a wait.
   */
  lemma {:induction false} ExhaustsFrom<T>(call: nat -> Attempt<T>, retries: int, factor: int, attempt: nat, currentDelay: int)
    requires attempt <= retries
    requires forall k: nat :: attempt <= k < retries ==> call(k).Failed? && Retryable(call(k).error)
    ensures RetryFrom(call, retries, factor, attempt, currentDelay)
            == Run(Threw(RetriesExhausted(retries)), retries, Geometric(currentDelay, factor, retries - attempt))
    decreases retries - attempt
  {
    if attempt < retries {
      assert call(attempt).Failed? && Retryable(call(attempt).error);
      ExhaustsFrom(call, retries, factor, attempt + 1, currentDelay * factor);
    }
  }

  /**
   A transient failure on every attempt exhausts the retries: the action is
   invoked exactly `retries` times, each invocation is followed by a wait
   (the last one too), and the loop throws "Failed after N retries".
   */
  lemma PersistentOutageExhausts<T>(call: nat -> Attempt<T>, retries: int, delay: int, factor: int)
    requires retries >= 0
    requires forall k: nat :: k < retries ==> call(k).Failed? && Retryable(call(k).error)
    ensures Retry(call, retries, delay, factor) == Run(Threw(RetriesExhausted(retries)), retries, Geometric(delay, factor, retries))
  {
    ExhaustsFrom(call, retries, factor, 0, delay);
  }

  /**
   With the defaults, a host that never answers: five invocations, waits of
   1, 2, 4, 8 and 16 seconds (the last one after the final attempt), then
   "Failed after 5 retries".
   */
  lemma PersistentOutageDefaults<T>(call: nat -> Attempt<T>)
    requires forall k: nat :: call(k) == Failed(Error(Some("ECONNRESET"), None))
    ensures Retry(call, DefaultRetries, DefaultDelay, DefaultFactor)
            == Run(Threw(RetriesExhausted(5)), 5, [1000, 2000, 4000, 8000, 16000])
  {
    PersistentOutageExhausts(call, DefaultRetries, DefaultDelay, DefaultFactor);
    assert Geometric(DefaultDelay, DefaultFactor, 5) == [1000, 2000, 4000, 8000, 16000];
  }

  /** A client error (4xx, or no status and no transient code) is thrown on after one invocation, without waiting. */
  lemma ClientErrorNotRetried<T>(call: nat -> Attempt<T>, e: Error, retries: int, delay: int, factor: int)
    requires call(0) == Failed(e) && !Retryable(e)
    requires retries > 0
    ensures Retry(call, retries, delay, factor) == Run(Threw(Rethrown(e)), 1, [])
  {
  }
}

=== FILE: cli.dfy ===
/**
 The command layer of the operator console (cloudMindCLI.js:88-105): each
 input line is trimmed and classified; the translator chat (cloudMindCLI.js:
 62-83) leaves on an exact "exit" or "quit".

 The `send` command is recognised by the regular expression
 `send -f (.+) -n (.+)`, which is not anchored: its match is the leftmost
 position where "send -f " starts a match, the file is the LONGEST text
 before a later " -n " that still leaves a non-empty node, and the node runs
 to the end of the line. A `.` matches no line terminator, so neither part
 crosses one.
 */
module Cli {
  import opened Wrappers
  import opened Text

  datatype Command =
    | Help
    | Status
    | SetAutonomy(enabled: bool)
    | Chat
    | SendFile(file: string, node: string)
    | Unrecognized   // prints the hint and prompts again

  const SendPrefix: string := "send -f "
  const NodeFlag: string := " -n "

  predicate NoTerminator(t: string) {
    forall j :: 0 <= j < |t| ==> !IsLineTerminator(t[j])
  }

  /**
   A match of the send pattern starting at `i` whose node flag starts at `p`:
   a non-empty file without line terminators, then " -n ", then at least one
   node character.
   */
  predicate FlagAt(s: string, i: nat, p: nat) {
    && i + |SendPrefix| < p
    && p + |NodeFlag| < |s|
    && s[i..i + |SendPrefix|] == SendPrefix
    && NoTerminator(s[i + |SendPrefix|..p])
    && s[p..p + |NodeFlag|] == NodeFlag
    && !IsLineTerminator(s[p + |NodeFlag|])
  }

  predicate MatchesAt(s: string, i: nat) {
    exists p: nat :: p < |s| && FlagAt(s, i, p)
  }

  /** Where the greedy `(.+)` of the node stops: the next line terminator, or the end. */
  function RunEnd(s: string, k: nat): (q: nat)
    requires k <= |s|
    ensures k <= q <= |s|
    ensures NoTerminator(s[k..q])
    ensures q == |s| || IsLineTerminator(s[q])
    decreases |s| - k
  {
    if k == |s| || IsLineTerminator(s[k]) then k else RunEnd(s, k + 1)
  }

  /**
   The backtracking of the greedy file group: the flag positions for a match
   at `i` are tried from `p` downwards, and the first that works is kept.
   */
  function LastFlag(s: string, i: nat, p: int): (r: Option<nat>)
    ensures r.Some? ==> r.value <= p && FlagAt(s, i, r.value)
    ensures r.Some? ==> forall q: nat :: r.value < q <= p ==> !FlagAt(s, i, q)
    ensures r.None? ==> forall q: nat :: q <= p ==> !FlagAt(s, i, q)
    decreases p
  {
    if p <= i + |SendPrefix| then None
    else if FlagAt(s, i, p) then Some(p)
    else LastFlag(s, i, p - 1)
  }

  /** The leftmost start at or after `i` where the pattern matches, with its greedy flag position. */
  function FindSend(s: string, i: nat): (r: Option<(nat, nat)>)
    ensures r.Some? ==> i <= r.value.0 && FlagAt(s, r.value.0, r.value.1)
    ensures r.Some? ==> forall q: nat :: r.value.1 < q ==> !FlagAt(s, r.value.0, q)
    ensures r.Some? ==> forall j: nat :: i <= j < r.value.0 ==> !MatchesAt(s, j)
    ensures r.None? ==> forall j: nat :: i <= j ==> !MatchesAt(s, j)
    decreases |s| - i
  {
    if i >= |s| then
      assert forall j: nat, q: nat :: i <= j ==> !FlagAt(s, j, q);
      None
    else
      match LastFlag(s, i, |s| - |NodeFlag| - 1)
      case Some(p) => Some((i, p))
      case None => FindSend(s, i + 1)
  }

  /** The exact commands, compared after trimming. */
  predicate IsExactCommand(t: string) {
    t == "help" || t == "status" || t == "start -a" || t == "start -m" || t == "halt -a" || t == "chat"
  }

  /** The command for an already trimmed line. */
  function ClassifyTrimmed(t: string): (c: Command)
    ensures c == Help <==> t == "help"
    ensures c == Status <==> t == "status"
    ensures c == SetAutonomy(true) <==> t == "start -a"
    ensures c == SetAutonomy(false) <==> t == "start -m" || t == "halt -a"
    ensures c == Chat <==> t == "chat"
    ensures c.SendFile? <==> !IsExactCommand(t) && exists i: nat :: MatchesAt(t, i)
    ensures c.SendFile? ==> |c.file| > 0 && |c.node| > 0 && NoTerminator(c.file) && NoTerminator(c.node)
  {
    if t == "help" then Help
    else if t == "status" then Status
    else if t == "start -a" then SetAutonomy(true)
    else if t == "start -m" || t == "halt -a" then SetAutonomy(false)
    else if t == "chat" then Chat
    else
      match FindSend(t, 0)
      case Some((i, p)) =>
        assert MatchesAt(t, i);
        SendFile(t[i + |SendPrefix|..p], t[p + |NodeFlag|..RunEnd(t, p + |NodeFlag|)])
      case None => Unrecognized
  }

  /** What the console does with one input line: it is trimmed first. */
  function Classify(line: string): (c: Command)
    ensures c == Help <==> Trim(line) == "help"
    ensures c == Status <==> Trim(line) == "status"
    ensures c == SetAutonomy(true) <==> Trim(line) == "start -a"
    ensures c == SetAutonomy(false) <==> Trim(line) == "start -m" || Trim(line) == "halt -a"
    ensures c == Chat <==> Trim(line) == "chat"
    ensures c.SendFile? <==> !IsExactCommand(Trim(line)) && exists i: nat :: MatchesAt(Trim(line), i)
    ensures c.SendFile? ==> |c.file| > 0 && |c.node| > 0 && NoTerminator(c.file) && NoTerminator(c.node)
  {
    ClassifyTrimmed(Trim(line))
  }

  /** The last flag position at or below `p` is the one the backtracking keeps. */
  lemma {:induction false} LastFlagFinds(s: string, i: nat, f: nat, p: int)
    requires f <= p && FlagAt(s, i, f)
    requires forall q: nat :: f < q <= p ==> !FlagAt(s, i, q)
    ensures LastFlag(s, i, p) == Some(f)
    decreases p
  {
    if p > f {
      LastFlagFinds(s, i, f, p - 1);
    }
  }

  /** On a line without terminators from `k` on, the node runs to the end of the line. */
  lemma {:induction false} RunEndOfTerminatorFree(s: string, k: nat)
    requires k <= |s| && NoTerminator(s[k..])
    ensures RunEnd(s, k) == |s|
    decreases |s| - k
  {
    if k < |s| {
      assert s[k] == s[k..][0];
      assert s[k + 1..] == s[k..][1..];
      RunEndOfTerminatorFree(s, k + 1);
    }
  }

  /** The line the console reads for a file and a node. */
  function SendLine(file: string, node: string): string {
    SendPrefix + file + NodeFlag + node
  }

  /** In a built send line, no flag follows the one that was put there. */
  lemma NoLaterFlag(file: string, node: string, q: nat)
    requires !Contains(" " + node, NodeFlag)
    requires |SendPrefix| + |file| < q
    ensures !FlagAt(SendLine(file, node), 0, q)
  {
    var s := SendLine(file, node);
    var f := |SendPrefix| + |file|;
    if q + |NodeFlag| < |s| {
      if q < f + 3 {
        assert s[q] == NodeFlag[q - f] != ' ';
        assert s[q..q + |NodeFlag|][0] == s[q];
      } else {
        var t := " " + node;
        var k := q - f - 3;
        assert s[q..q + |NodeFlag|] == t[k..k + |NodeFlag|];
        assert !StartsWith(t[k..], NodeFlag);
        assert t[k..][..|NodeFlag|] == t[k..k + |NodeFlag|];
      }
    }
  }

  /** The flag that was put into a built send line is a match of the pattern. */
  lemma FlagOfSendLine(file: string, node: string)
    requires |file| > 0 && NoTerminator(file)
    requires |node| > 0 && NoTerminator(node)
    ensures FlagAt(SendLine(file, node), 0, |SendPrefix| + |file|)
    ensures SendLine(file, node)[|SendPrefix|..|SendPrefix| + |file|] == file
    ensures SendLine(file, node)[|SendPrefix| + |file| + |NodeFlag|..] == node
  {
    var s := SendLine(file, node);
    var f := |SendPrefix| + |file|;
    assert s[0..|SendPrefix|] == SendPrefix;
    assert s[|SendPrefix|..f] == file;
    assert s[f..f + |NodeFlag|] == NodeFlag;
    assert s[f + |NodeFlag|..] == node;
    assert s[f + |NodeFlag|] == node[0];
  }

  /** The backtracking finds the flag that was put into a built send line. */
  lemma FindSendLine(file: string, node: string)
    requires |file| > 0 && NoTerminator(file)
    requires |node| > 0 && NoTerminator(node)
    requires !Contains(" " + node, NodeFlag)
    ensures FindSend(SendLine(file, node), 0) == Some((0, |SendPrefix| + |file|))
  {
    var s := SendLine(file, node);
    var f := |SendPrefix| + |file|;
    FlagOfSendLine(file, node);
    forall q: nat | f < q <= |s| - |NodeFlag| - 1
      ensures !FlagAt(s, 0, q)
    {
      NoLaterFlag(file, node, q);
    }
    LastFlagFinds(s, 0, f, |s| - |NodeFlag| - 1);
  }

  /** A line longer than every exact command is classified by the send pattern alone. */
  lemma ClassifyLongLine(s: string, i: nat, p: nat)
    requires |s| > 8
    requires FindSend(s, 0) == Some((i, p))
    ensures ClassifyTrimmed(s) == SendFile(s[i + |SendPrefix|..p], s[p + |NodeFlag|..RunEnd(s, p + |NodeFlag|)])
  {
    assert !IsExactCommand(s);
  }

  /** The pattern takes a built send line apart into the file and the node it was built from. */
  lemma SendLineClassified(file: string, node: string)
    requires |file| > 0 && NoTerminator(file)
    requires |node| > 0 && NoTerminator(node)
    requires !Contains(" " + node, NodeFlag)
    ensures ClassifyTrimmed(SendLine(file, node)) == SendFile(file, node)
  {
    var s := SendLine(file, node);
    var f := |SendPrefix| + |file|;
    FindSendLine(file, node);
    FlagOfSendLine(file, node);
    RunEndOfTerminatorFree(s, f + |NodeFlag|);
    assert s[f + |NodeFlag|..RunEnd(s, f + |NodeFlag|)] == node;
    ClassifyLongLine(s, 0, f);
  }

  /**
   A send line built from a file and a node comes apart into the same file
   and node, as long as the node cannot be mistaken for a later flag (no
   " -n " in it, not even straddling its start) and the line survives
   trimming.
   */
  lemma SendRoundTrip(file: string, node: string)
    requires |file| > 0 && NoTerminator(file)
    requires |node| > 0 && NoTerminator(node) && !IsSpace(node[|node| - 1])
    requires !Contains(" " + node, NodeFlag)
    ensures Classify(SendLine(file, node)) == SendFile(file, node)
  {
    var s := SendLine(file, node);
    SendLineClassified(file, node);
    assert s[0] == 's' && s[|s| - 1] == node[|node| - 1];
    TrimOfTrimmed(s);
  }

  /** White space around a command does not change what it selects. */
  lemma PaddingIgnored(w1: string, t: string, w2: string)
    requires AllSpace(w1) && AllSpace(w2) && IsTrimmed(t)
    ensures Classify(w1 + t + w2) == Classify(t)
  {
    TrimAround(w1, t, w2);
    TrimOfTrimmed(t);
  }

  /** The file part is greedy: with two flags in the line, the first one belongs to the file. */
  lemma GreedyFile()
    ensures Classify("send -f a -n b -n c") == SendFile("a -n b", "c")
  {
    assert SendLine("a -n b", "c") == "send -f a -n b -n c";
    assert NoTerminator("a -n b") && NoTerminator("c");
    assert !Contains(" c", NodeFlag);
    SendRoundTrip("a -n b", "c");
  }

  /** What the translator chat does with one line: leave, or send it to the translator as typed. */
  datatype ChatStep = Leave | Ask(prompt: string)

  /** Only the exact words leave the chat: the line is not trimmed. */
  function ChatInput(input: string): (r: ChatStep)
    ensures r == Leave <==> input == "exit" || input == "quit"
    ensures r.Ask? ==> r.prompt == input
  {
    if input == "exit" || input == "quit" then Leave else Ask(input)
  }
}

=== FILE: envelope.dfy ===
/**
 Envelopes, the node registry, and the parts of the relay that shape an
 envelope before it is logged: the walky-talky default-fill of `/broadcast`
 and `/send`, and the corrective envelopes (nudges and demerits) the router
 constructs.

 An envelope is a JSON object with the sections header, intent, resources,
 audit (or audit_result) and trace; since the relay reads it with JavaScript
 property accesses, it is modelled as a `Json` value and read through
 `OptGet`/`Get`.
 */
module Envelope {
  import opened Json

  const ProtocolVersion: string := "CM-JS-0.2"
  const Auditor: string := "core:aud:audit01"
  const Translator: string := "core:trn:main"
  const Conduit: string := "core:gen:conduit"
  const RelayRouter: string := "core:relay:router"
  const RelayServer: string := "core:relay:server"

  /** A registry entry: an object with (among others) `status` and `assistant_id`. */
  datatype Node = Node(fields: map<string, Json>) {
    function Status(): Json {
      Lookup(fields, "status")
    }

    function AssistantId(): Json {
      Lookup(fields, "assistant_id")
    }
  }

  /** Node id to node. Every entry is an object, so a lookup is truthy exactly when the key is present. */
  type Registry = map<string, Node>

  /** `nodeRegistry[id]` is truthy: the id, converted to a property key, is registered. */
  predicate Registered(registry: Registry, id: Json) {
    ToString(id) in registry
  }

  /** `e?.section?.key`. */
  function Section(e: Json, section: string, key: string): Json {
    OptGet(OptGet(e, section), key)
  }

  // ---------------------------------------------------------------------------
  // Default-fill (`/broadcast`, `/send`)
  // ---------------------------------------------------------------------------

  const DefaultWalkyTalky: Json :=
    Obj(map["format" := Str("javascript"), "verbosity" := Str("standard"), "negotiation" := Bool(false)])

  /** A body whose `resources` can be set: an object, or an array (whose named properties JSON never shows). */
  predicate Fillable(message: Json) {
    message.Obj? || message.Arr?
  }

  /**
   A falsy `resources` becomes `{}`; then a falsy `resources.walky_talky`
   becomes the default descriptor. Assigning a property of a primitive is
   silently ignored in sloppy-mode JavaScript, so a truthy primitive
   `resources` stays as it is, and a primitive body keeps no `resources` at
   all: reading `walky_talky` of that missing `resources` throws, as reading
   `resources` of undefined or null does.
   */
  function DefaultFill(message: Json): (r: Eval<Json>)
    ensures r.TypeError? <==> !Fillable(message)
    ensures message.Arr? ==> r == Value(message)
    ensures message.Obj? ==> r.Value? && r.value.Obj?
    ensures message.Obj? ==> r.value.fields.Keys == message.fields.Keys + {"resources"}
    ensures message.Obj? ==> forall k :: k in message.fields && k != "resources" ==> r.value.fields[k] == message.fields[k]
    ensures message.Obj? && !Truthy(Lookup(message.fields, "resources")) ==>
              r.value.fields["resources"] == Obj(map["walky_talky" := DefaultWalkyTalky])
    ensures message.Obj? && Truthy(Lookup(message.fields, "resources")) && !Lookup(message.fields, "resources").Obj? ==>
              r.value.fields["resources"] == message.fields["resources"]
    ensures message.Obj? && Lookup(message.fields, "resources").Obj? ==>
              var before := Lookup(message.fields, "resources").fields;
              var after := r.value.fields["resources"];
              && after.Obj?
              && after.fields.Keys == before.Keys + {"walky_talky"}
              && (forall k :: k in before && k != "walky_talky" ==> after.fields[k] == before[k])
              && (Truthy(Lookup(before, "walky_talky")) ==> after.fields["walky_talky"] == before["walky_talky"])
              && (!Truthy(Lookup(before, "walky_talky")) ==> after.fields["walky_talky"] == DefaultWalkyTalky)
  {
    match message
    case Undefined => TypeError
    case Null => TypeError
    case Obj(m) =>
      var resources := if Truthy(Lookup(m, "resources")) then Lookup(m, "resources") else Obj(map[]);
      var filled :=
        match resources
        case Obj(rm) =>
          if Truthy(Lookup(rm, "walky_talky")) then resources
          else Obj(rm["walky_talky" := DefaultWalkyTalky])
        case _ => resources;
      Value(Obj(m["resources" := filled]))
    case Arr(_) => Value(message)
    case _ => TypeError
  }

  /** Filling an already filled message changes nothing. */
  lemma DefaultFillIdempotent(message: Json)
    requires Fillable(message)
    ensures DefaultFill(DefaultFill(message).value) == DefaultFill(message)
  {
    if message.Obj? {
      var once := DefaultFill(message).value;
      var res := once.fields["resources"];
      assert Truthy(res);
      if res.Obj? {
        assert Truthy(Lookup(res.fields, "walky_talky"));
        assert res.fields["walky_talky" := res.fields["walky_talky"]] == res.fields;
      }
      assert once.fields["resources" := res] == once.fields;
    }
  }

  /** The reply of `/broadcast` or `/send`. */
  datatype PostReply =
    | Broadcasted(nodes: set<string>)   // 200, with the registered node ids
    | Sent(to: Json)                    // 200
    | DestinationNotFound               // 400
    | InternalError                     // 500: a property read threw inside the handler

  datatype Posted = Posted(log: seq<Json>, reply: PostReply)

  /**
   `/broadcast`: default-fill, append, then show `header.message_id` in the
   console line. A message without a header is appended all the same; the read
   that follows throws and the request fails, as it does when the id cannot
   be converted to text. A body that cannot be filled throws before anything
   is appended.
   */
  function Broadcast(message: Json, log: seq<Json>, registry: Registry): (p: Posted)
    ensures !Fillable(message) ==> p == Posted(log, InternalError)
    ensures Fillable(message) ==> p.log == log + [DefaultFill(message).value]
    ensures p.reply.Broadcasted? <==>
              message.Obj? && !Nullish(OptGet(message, "header")) && Printable(Section(message, "header", "message_id"))
    ensures p.reply.Broadcasted? ==> p.reply.nodes == registry.Keys
    ensures p.reply.Broadcasted? || p.reply == InternalError
  {
    match DefaultFill(message)
    case TypeError => Posted(log, InternalError)
    case Value(filled) =>
      assert OptGet(filled, "header") == OptGet(message, "header");
      match Get(OptGet(filled, "header"), "message_id")
      case TypeError => Posted(log + [filled], InternalError)
      case Value(id) =>
        if Printable(id) then Posted(log + [filled], Broadcasted(registry.Keys))
        else Posted(log + [filled], InternalError)
  }

  /**
   `/send`: the destination is read and checked against the registry before
   anything is filled or appended; an unregistered destination is rejected
   and the log is left as it was. The registry lookup converts the
   destination to a property key, and the console line after the append
   shows `header.message_id`: a value that cannot be converted to text
   throws at either point, before the append or after it.
   */
  function Send(message: Json, log: seq<Json>, registry: Registry): (p: Posted)
    ensures p.log == log || (message.Obj? && p.log == log + [DefaultFill(message).value])
    ensures p.reply.Sent? || p.reply == DestinationNotFound || p.reply == InternalError
    ensures p.log != log <==>
              message.Obj? && !Nullish(OptGet(message, "header"))
              && Printable(Section(message, "header", "destination_node"))
              && Registered(registry, Section(message, "header", "destination_node"))
    ensures p.reply.Sent? <==> p.log != log && Printable(Section(message, "header", "message_id"))
    ensures p.reply.Sent? ==> p.reply.to == Section(message, "header", "destination_node")
                              && Registered(registry, p.reply.to)
    ensures p.reply == DestinationNotFound <==>
              !Nullish(message) && !Nullish(OptGet(message, "header"))
              && Printable(Section(message, "header", "destination_node"))
              && !Registered(registry, Section(message, "header", "destination_node"))
    ensures message.Obj? && !Nullish(OptGet(message, "header"))
            && Printable(Section(message, "header", "destination_node"))
            && Registered(registry, Section(message, "header", "destination_node"))
            && Printable(Section(message, "header", "message_id")) ==>
              p == Posted(log + [DefaultFill(message).value], Sent(Section(message, "header", "destination_node")))
  {
    match Get(message, "header")
    case TypeError => Posted(log, InternalError)
    case Value(header) =>
      match Get(header, "destination_node")
      case TypeError => Posted(log, InternalError)
      case Value(destination) =>
        if !Printable(destination) then Posted(log, InternalError)
        else if !Registered(registry, destination) then Posted(log, DestinationNotFound)
        else
          var appended := log + [DefaultFill(message).value];
          if Printable(Get(header, "message_id").value) then Posted(appended, Sent(destination))
          else Posted(appended, InternalError)
  }

  /**
   A message id that cannot be converted to text (an object with its own
   `toString` key) fails the request only after the message was appended:
   the console line that shows the id comes after the push.
   */
  lemma UnprintableIdLoggedThenFails(message: Json, log: seq<Json>, registry: Registry)
    requires message.Obj? && !Nullish(OptGet(message, "header"))
    requires !Printable(Section(message, "header", "message_id"))
    ensures Broadcast(message, log, registry) == Posted(log + [DefaultFill(message).value], InternalError)
    ensures Printable(Section(message, "header", "destination_node"))
            && Registered(registry, Section(message, "header", "destination_node")) ==>
              Send(message, log, registry) == Posted(log + [DefaultFill(message).value], InternalError)
  {
  }

  // ---------------------------------------------------------------------------
  // Corrective envelopes
  // ---------------------------------------------------------------------------

  /**
   Identifiers the relay draws from uuid for one constructed envelope: the
   suffixes of `message_id` ("MSG-…"), `task_id` and `thread_id` ("THREAD-…").
   */
  datatype Fresh = Fresh(messageId: string, taskId: string, threadId: string)

  /**
   The envelopes the relay constructs itself, by what they are built from.
   They are ordinary envelopes once rendered; keeping the recipe lets the
   routing rules speak about them without expanding their text.
   */
  datatype Corrective =
    | RegenerateNudge(origin: Json, destination: Json, parentMessageId: Json)
    | TranslatorDemerit(thread: Json, parentMessageId: Json)
    | NodeNotFoundNudge(unknown: Json, thread: Json, parentMessageId: Json)
    | ParseDemerit(nodeId: Json)

  /** The JSON envelope of a corrective, with the timestamp and uuid-derived ids it is stamped with. */
  function Render(c: Corrective, clock: string, ids: Fresh): Json {
    match c
    case RegenerateNudge(origin, destination, parent) => RenderRegenerateNudge(origin, destination, parent, clock, ids)
    case TranslatorDemerit(thread, parent) => RenderTranslatorDemerit(thread, parent, clock, ids)
    case NodeNotFoundNudge(unknown, thread, parent) => RenderNodeNotFoundNudge(unknown, thread, parent, clock, ids)
    case ParseDemerit(nodeId) => RenderParseDemerit(nodeId, clock, ids)
  }

  /** An envelope from its five sections; each section reads back as the object it was built from. */
  function MakeEnvelope(header: map<string, Json>, intent: map<string, Json>, resources: map<string, Json>,
                        audit: map<string, Json>, trace: map<string, Json>): (e: Json)
    ensures OptGet(e, "header") == Obj(header) && OptGet(e, "intent") == Obj(intent) && OptGet(e, "trace") == Obj(trace)
  {
    Obj(map["header" := Obj(header), "intent" := Obj(intent), "resources" := Obj(resources),
            "audit" := Obj(audit), "trace" := Obj(trace)])
  }

  function Tags(a: string, b: string, c: string): Json {
    Arr([Str(a), Str(b), Str(c)])
  }

  /** The header every constructed envelope carries: fresh id, timestamp, endpoints, type and priority. */
  function HeaderSection(ids: Fresh, clock: string, origin: Json, destination: Json, kind: string, priority: string)
    : (h: map<string, Json>)
    ensures Lookup(h, "origin_node") == origin && Lookup(h, "destination_node") == destination
    ensures Lookup(h, "message_type") == Str(kind)
  {
    map["protocol_version" := Str(ProtocolVersion), "message_id" := Str("MSG-" + ids.messageId),
        "timestamp" := Str(clock), "origin_node" := origin, "destination_node" := destination,
        "message_type" := Str(kind), "priority" := Str(priority), "requires_audit" := Bool(false)]
  }

  /** The intent of a constructed envelope: its action, task text, three context tags and task id. */
  function IntentSection(action: string, description: string, tags: Json, taskId: string): (i: map<string, Json>)
    ensures Lookup(i, "task_description") == Str(description)
  {
    map["action" := Str(action), "content_type" := Str("text"), "task_description" := Str(description),
        "context_tags" := tags, "task_id" := Str(taskId)]
  }

  /** The trace of a constructed envelope: its thread, its parent message and who spawned it. */
  function TraceSection(thread: Json, parent: Json, spawnedBy: string): (t: map<string, Json>)
    ensures Lookup(t, "thread_id") == thread && Lookup(t, "parent_message_id") == parent
  {
    map["thread_id" := thread, "parent_message_id" := parent, "spawned_by" := Str(spawnedBy)]
  }

  /** `trace?.thread_id || "THREAD-…"`: the routed envelope's thread, or a fresh one. */
  function ThreadOr(thread: Json, ids: Fresh): Json {
    if Truthy(thread) then thread else Str("THREAD-" + ids.threadId)
  }

  // The fixed texts of the corrective envelopes.
  const RegenerateTask: string :=
    "Previous message was deemed too generic. Please respond with more useful output or actionable information."
  const RegenerateOutput: string := "// Nudge triggered. Awaiting useful content."
  const TranslatorDemeritTask: string :=
    "Auditor attempted to relay to core:trn:main which is not permitted. Reassess and reroute."
  const TranslatorDemeritOutput: string :=
    "Auditor demerit issued. Translator is not a valid relay target. Please reassess your logic."
  const NotFoundTaskTail: string :=
    "\" is not registered in the system. You may suggest its creation or reroute your message."
  const NotFoundOutputTail: string :=
    "\" does not exist in the current CloudMind registry.\n"
    + "// You are encouraged to invent, but please verify or propose node definitions.\n"
    + "function suggestNode(name) { return `Node proposal submitted: ${name}`; }"
  const ParseDemeritTask: string := "Message was not parseable. Reassess and try again."

  /**
   `regenerateNudge(origin, destination, parentMessageId = null)`: the
   envelope is addressed from `origin` to `destination`; a parent passed as
   undefined takes the default null.
   */
  function RenderRegenerateNudge(origin: Json, destination: Json, parentMessageId: Json, clock: string, ids: Fresh): Json {
    var parent := if parentMessageId.Undefined? then Null else parentMessageId;
    MakeEnvelope(
      HeaderSection(ids, clock, origin, destination, "nudge", "normal"),
      IntentSection("regenerate", RegenerateTask, Tags("nudge", "regen", "ack-skip"), "NUDGE-" + ids.taskId),
      map["request_subprocess" := Bool(false),
          "walky_talky" := Obj(map["format" := Str("javascript"), "verbosity" := Str("high"), "negotiation" := Bool(true),
                                   "output" := Str(RegenerateOutput)])],
      map["status" := Str("not_required"), "expected_response_schema" := Str("task_response")],
      TraceSection(Str("THREAD-" + ids.threadId), parent, RelayRouter))
  }

  /** The demerit sent to the auditor when it approves a relay to the translator. */
  function RenderTranslatorDemerit(thread: Json, parentMessageId: Json, clock: string, ids: Fresh): Json {
    MakeEnvelope(
      HeaderSection(ids, clock, Str(RelayServer), Str(Auditor), "demerit", "high"),
      IntentSection("reject_translator_routing", TranslatorDemeritTask, Tags("auditor", "routing", "violation"),
                    "DMR-" + ids.taskId),
      map["request_subprocess" := Bool(false),
          "walky_talky" := Obj(map["format" := Str("text"), "naturalLang" := Str("english"), "verbosity" := Str("high"),
                                   "negotiation" := Bool(true), "output" := Str(TranslatorDemeritOutput)])],
      map["status" := Str("not_required"), "expected_response_schema" := Str("notice")],
      TraceSection(ThreadOr(thread, ids), parentMessageId, RelayServer))
  }

  /** The task text of the node-not-found nudge, naming the unknown node. */
  function NotFoundText(name: string): string {
    "The node \"" + name + NotFoundTaskTail
  }

  /** The `walky_talky` output of the node-not-found nudge, naming the unknown node. */
  function NotFoundOutput(name: string): string {
    "// Node \"" + name + NotFoundOutputTail
  }

  /** The nudge sent back to the conduit when it names an unregistered destination. */
  function RenderNodeNotFoundNudge(unknown: Json, thread: Json, parentMessageId: Json, clock: string, ids: Fresh): Json {
    var name := ToString(unknown);
    MakeEnvelope(
      HeaderSection(ids, clock, Str(RelayRouter), Str(Conduit), "nudge", "normal"),
      IntentSection("node_not_found", NotFoundText(name), Tags("nudge", "invalid_destination", "imagination_log"),
                    "NUDGE-" + ids.taskId),
      map["walky_talky" := Obj(map["format" := Str("text"), "verbosity" := Str("high"), "negotiation" := Bool(true),
                                   "output" := Str(NotFoundOutput(name))])],
      map["status" := Str("not_required"), "expected_response_schema" := Str("nudge_response")],
      TraceSection(ThreadOr(thread, ids), parentMessageId, RelayRouter))
  }

  /** The demerit the auditor is sent when anything in the routing block throws. */
  function RenderParseDemerit(nodeId: Json, clock: string, ids: Fresh): Json {
    MakeEnvelope(
      HeaderSection(ids, clock, Str(Auditor), nodeId, "demerit", "high"),
      IntentSection("demerit_notice", ParseDemeritTask, Tags("demerit", "routing", "error"),
                    "DMR-" + ids.taskId),
      map["walky_talky" := Obj(map["format" := Str("text"), "verbosity" := Str("standard"), "negotiation" := Bool(true)])],
      map["status" := Str("not_required"), "expected_response_schema" := Str("task_response")],
      TraceSection(Str("THREAD-" + ids.threadId), Null, Auditor))
  }

  /**
   The regeneration nudge is addressed from `origin` to `destination`, and a
   parent id left undefined becomes null through the parameter default.
   */
  lemma RegenerateNudgeAddressing(origin: Json, destination: Json, parent: Json, clock: string, ids: Fresh)
    ensures Section(Render(RegenerateNudge(origin, destination, parent), clock, ids), "header", "origin_node") == origin
    ensures Section(Render(RegenerateNudge(origin, destination, parent), clock, ids), "header", "destination_node") == destination
    ensures Section(Render(RegenerateNudge(origin, destination, parent), clock, ids), "trace", "parent_message_id")
            == (if parent.Undefined? then Null else parent)
  {
    assert Render(RegenerateNudge(origin, destination, parent), clock, ids)
        == RenderRegenerateNudge(origin, destination, parent, clock, ids);
  }

  /**
   The translator demerit goes from the relay server to the auditor and
   stays in the routed envelope's thread when it has one.
   */
  lemma TranslatorDemeritAddressing(thread: Json, parent: Json, clock: string, ids: Fresh)
    ensures Section(Render(TranslatorDemerit(thread, parent), clock, ids), "header", "origin_node") == Str(RelayServer)
    ensures Section(Render(TranslatorDemerit(thread, parent), clock, ids), "header", "destination_node") == Str(Auditor)
    ensures Truthy(thread) ==> Section(Render(TranslatorDemerit(thread, parent), clock, ids), "trace", "thread_id") == thread
    ensures !Truthy(thread) ==>
              Section(Render(TranslatorDemerit(thread, parent), clock, ids), "trace", "thread_id") == Str("THREAD-" + ids.threadId)
    ensures Section(Render(TranslatorDemerit(thread, parent), clock, ids), "trace", "parent_message_id") == parent
  {
    assert Render(TranslatorDemerit(thread, parent), clock, ids) == RenderTranslatorDemerit(thread, parent, clock, ids);
  }

  /**
   The node-not-found nudge goes from the relay router to the conduit and
   names the unknown node, converted to a string, in its task description.
   */
  lemma NodeNotFoundNudgeAddressing(unknown: Json, thread: Json, parent: Json, clock: string, ids: Fresh)
    ensures Section(Render(NodeNotFoundNudge(unknown, thread, parent), clock, ids), "header", "origin_node") == Str(RelayRouter)
    ensures Section(Render(NodeNotFoundNudge(unknown, thread, parent), clock, ids), "header", "destination_node") == Str(Conduit)
    ensures Section(Render(NodeNotFoundNudge(unknown, thread, parent), clock, ids), "intent", "task_description")
            == Str(NotFoundText(ToString(unknown)))
    ensures Section(Render(NodeNotFoundNudge(unknown, thread, parent), clock, ids), "trace", "parent_message_id") == parent
  {
    assert Render(NodeNotFoundNudge(unknown, thread, parent), clock, ids)
        == RenderNodeNotFoundNudge(unknown, thread, parent, clock, ids);
  }
}

=== FILE: fence.dfy ===
/**
 The clean-up applied to a model reply before it is parsed (cloudMind.js:366,
 and identically for the translator at cloudMind.js:219): two regular-expression
 replacements, one for an opening fence and one for a closing fence, followed by
 a trim.
 */
module Fence {
  import opened Text

  const OpenFence: string := "```json"
  const CloseFence: string := "```"

  /**
   The first replacement: the pattern is anchored at the start of the text, so
   only an opening "```json" at index 0 is removed, together with the longest
   run of white space after it.
   */
  function StripOpen(s: string): string {
    if StartsWith(s, OpenFence) then TrimStart(s[|OpenFence|..]) else s
  }

  /**
   The second replacement: the pattern is white space, three backticks and
   the end of the text; its leftmost match starts where the white space in
   front of a final "```" starts, so the fence and all of that white space go.
   */
  function StripClose(s: string): string {
    if EndsWith(s, CloseFence) then TrimEnd(s[..|s| - |CloseFence|]) else s
  }

  /** The cleaned reply text handed to `JSON.parse`. */
  function StripFence(reply: string): (r: string)
    ensures IsTrimmed(r)
    ensures |r| <= |reply|
    ensures !StartsWith(reply, OpenFence) && !EndsWith(reply, CloseFence) ==> r == Trim(reply)
  {
    Trim(StripClose(StripOpen(reply)))
  }

  /** A body wrapped in a "```json" fence, with any white space around the body. */
  function Wrap(w1: string, body: string, w2: string): string {
    OpenFence + w1 + body + w2 + CloseFence
  }

  /** The opening fence and the white space after it are removed, and nothing more. */
  lemma StripOpenOf(w: string, t: string)
    requires AllSpace(w)
    requires t == [] || !IsSpace(t[0])
    ensures StripOpen(OpenFence + w + t) == t
  {
    var s := OpenFence + w + t;
    assert s[..|OpenFence|] == OpenFence;
    assert s[|OpenFence|..] == w + t;
    TrimStartOf(w, t);
  }

  /** The closing fence and the white space before it are removed, and nothing more. */
  lemma StripCloseOf(t: string, w: string)
    requires AllSpace(w)
    requires t == [] || !IsSpace(t[|t| - 1])
    ensures StripClose(t + w + CloseFence) == t
  {
    var s := t + w + CloseFence;
    assert s[|s| - |CloseFence|..] == CloseFence;
    assert s[..|s| - |CloseFence|] == t + w;
    TrimEndOf(t, w);
  }

  /** Unwrapping a fenced trimmed body gives back exactly the body. */
  lemma FencedRoundTrip(w1: string, body: string, w2: string)
    requires AllSpace(w1) && AllSpace(w2) && IsTrimmed(body)
    ensures StripFence(Wrap(w1, body, w2)) == body
  {
    if body == [] {
      assert Wrap(w1, body, w2) == OpenFence + (w1 + w2) + CloseFence;
      assert AllSpace(w1 + w2);
      StripOpenOf(w1 + w2, CloseFence);
      assert CloseFence == [] + [] + CloseFence;
      StripCloseOf([], []);
    } else {
      assert Wrap(w1, body, w2) == OpenFence + w1 + (body + w2 + CloseFence);
      StripOpenOf(w1, body + w2 + CloseFence);
      StripCloseOf(body, w2);
    }
    TrimOfTrimmed(body);
  }

  /** The usual shape of a fenced reply: "```json", a newline, the body, a newline, "```". */
  lemma FencedLinesRoundTrip(body: string)
    requires IsTrimmed(body)
    ensures StripFence("```json\n" + body + "\n```") == body
  {
    assert "```json\n" + body + "\n```" == Wrap("\n", body, "\n");
    FencedRoundTrip("\n", body, "\n");
  }

  /**
   A bare "```" opening (without "json") is not removed: only the closing
   fence goes, and the cleaned text still starts with the three backticks.
   */
  lemma BareFenceKept(body: string)
    requires IsTrimmed(body) && body != []
    ensures StripFence("```\n" + body + "\n```") == "```\n" + body
  {
    var kept := "```\n" + body;
    var s := kept + "\n" + CloseFence;
    assert s == "```\n" + body + "\n```";
    assert s[..|OpenFence|][3] != OpenFence[3];
    assert StripOpen(s) == s;
    assert kept[|kept| - 1] == body[|body| - 1];
    StripCloseOf(kept, "\n");
    TrimOfTrimmed(kept);
  }

  /** A fenced reply is cleaned to the same text as its unfenced body. */
  lemma FencedDecodesAsBody(body: string)
    requires IsTrimmed(body)
    requires !StartsWith(body, OpenFence) && !EndsWith(body, CloseFence)
    ensures StripFence("```json\n" + body + "\n```") == StripFence(body)
  {
    FencedLinesRoundTrip(body);
    TrimOfTrimmed(body);
  }
}

=== FILE: json.dfy ===
/**
 This module gives JSON values the JavaScript meaning the relay relies on:
 truthiness, strict equality (`===`), conversion to a string (as a property
 key or inside a template literal), and property reads that may throw.

 Numbers are modelled as integers; fractional numbers, NaN and exponent
 formatting are not part of this model.
 */
module Json {

  /** A value produced by `JSON.parse`, plus `undefined` for a missing property. */
  datatype Json =
    | Undefined
    | Null
    | Bool(b: bool)
    | Num(n: int)
    | Str(s: string)
    | Arr(items: seq<Json>)
    | Obj(fields: map<string, Json>)

  /** The outcome of evaluating a JavaScript expression that may throw a TypeError. */
  datatype Eval<+T> = Value(value: T) | TypeError

  predicate Nullish(v: Json) {
    v.Undefined? || v.Null?
  }

  /** JavaScript's ToBoolean on a JSON value. */
  predicate Truthy(v: Json) {
    match v
    case Undefined => false
    case Null => false
    case Bool(b) => b
    case Num(n) => n != 0
    case Str(s) => s != ""
    case Arr(_) => true
    case Obj(_) => true
  }

  /**
   `a === b`. Objects and arrays compare by reference; the values compared by
   the relay always come from separate parses, so two of them are never the
   same reference.
   */
  predicate StrictEquals(a: Json, b: Json) {
    match (a, b)
    case (Undefined, Undefined) => true
    case (Null, Null) => true
    case (Bool(x), Bool(y)) => x == y
    case (Num(x), Num(y)) => x == y
    case (Str(x), Str(y)) => x == y
    case _ => false
  }

  /** A missing key of an object reads as undefined. */
  function Lookup(m: map<string, Json>, key: string): Json {
    if key in m then m[key] else Undefined
  }

  /**
   `v.key`: throws on undefined and null. Values other than objects carry none
   of the property names the relay reads, so they read as undefined.
   */
  function Get(v: Json, key: string): (r: Eval<Json>)
    ensures r.TypeError? <==> Nullish(v)
    ensures r.Value? && v.Obj? ==> r.value == Lookup(v.fields, key)
    ensures r.Value? && !v.Obj? ==> r.value == Undefined
  {
    match v
    case Undefined => TypeError
    case Null => TypeError
    case Obj(m) => Value(Lookup(m, key))
    case _ => Value(Undefined)
  }

  /** `v?.key`: optional chaining reads undefined through undefined and null. */
  function OptGet(v: Json, key: string): (r: Json)
    ensures Nullish(v) ==> r == Undefined
    ensures !Nullish(v) ==> Get(v, key) == Value(r)
  {
    if Nullish(v) then Undefined else Get(v, key).value
  }

  function DigitChar(d: int): char
    requires 0 <= d < 10
  {
    "0123456789"[d]
  }

  function NatToDecimal(n: nat): (r: string)
    ensures |r| > 0
  {
    if n < 10 then [DigitChar(n)] else NatToDecimal(n / 10) + [DigitChar(n % 10)]
  }

  function IntToDecimal(n: int): string {
    if n < 0 then "-" + NatToDecimal(-n) else NatToDecimal(n)
  }

  /**
   `String(v)`, which is also the key an object lookup `o[v]` uses and the text
   a template literal `${v}` inserts. An array joins its elements with commas,
   writing undefined and null elements as the empty string.
   */
  function ToString(v: Json): string
    decreases v, 1, 0
  {
    match v
    case Undefined => "undefined"
    case Null => "null"
    case Bool(b) => if b then "true" else "false"
    case Num(n) => IntToDecimal(n)
    case Str(s) => s
    case Arr(_) => JoinFrom(v, 0)
    case Obj(_) => "[object Object]"
  }

  /** The comma-joined string of the elements of array `v` from index `k` on. */
  function JoinFrom(v: Json, k: nat): string
    requires v.Arr? && k <= |v.items|
    decreases v, 0, |v.items| - k
  {
    if k == |v.items| then ""
    else
      var x := v.items[k];
      (if k > 0 then "," else "") + (if Nullish(x) then "" else ToString(x)) + JoinFrom(v, k + 1)
  }

  /**
   Whether `String(v)` and a template literal `${v}` convert `v` without
   throwing. A JSON value is never a function, so an object with its own
   `toString` key has no callable `toString`; the conversion falls back to
   `valueOf`, which returns the object itself, and throws a TypeError. An
   array converts each of its elements, so it throws when one of them does.
   `ToString` gives the text of every value this predicate admits.
   */
  predicate Printable(v: Json)
    decreases v
  {
    match v
    case Obj(fields) => "toString" !in fields
    case Arr(items) => forall k :: 0 <= k < |items| ==> Printable(items[k])
    case _ => true
  }

  /** Strict equality is value equality on everything but objects and arrays. */
  lemma StrictEqualsIsValueEquality(a: Json, b: Json)
    ensures StrictEquals(a, b) <==> a == b && !a.Arr? && !a.Obj?
  {
  }
}

=== FILE: router.dfy ===
/**
 The routing and policy decision of `/node-communicate` (cloudMind.js:366-602),
 taken once the upstream model has replied: a pure step from the reply text,
 the id of the node that produced it, and the relay's state, to the HTTP
 status, the POSTs the handler sends back to `/node-communicate`, and the new
 message log and acknowledgement-cooldown table.

 The rules apply in a fixed order: init suppression, acknowledgement rate
 limiting with a regeneration nudge, the auditor's compliance relay (with a
 demerit for a relay to the translator), log append, the unknown-destination
 nudge to the conduit, and the autonomous forward. Anything that throws in
 that block, not only the parse, ends in a demerit to the auditor.

 Dispatches are recorded, never executed. Each one is awaited in the source,
 and a POST that fails (a non-2xx reply or a network error) throws into the
 same demerit path; `delivered` says which dispatches complete.
 */
module Router {
  import opened Wrappers
  import opened Json
  import opened Text
  import opened Fence
  import opened Envelope

  const AckCooldownMs: int := 5000

  /** `JSON.parse` of the cleaned reply: a value, or a syntax error. */
  datatype Decoded = Unparseable | Parsed(value: Json)

  /** The relay's process-wide state as the handler sees it. */
  datatype World = World(registry: Registry, log: seq<Json>, cooldowns: map<string, int>, autonomous: bool)

  /**
   Values the environment supplies: `Date.now()`, the ISO timestamp, and
   uuid-derived identifiers for the corrective envelope of the routing block
   (`primary`) and for the demerit of the exception path (`fallback`).
   */
  datatype Context = Context(now: int, clock: string, primary: Fresh, fallback: Fresh)

  /** The envelope a dispatch carries: one the relay received, or one it constructed. */
  datatype Payload = Verbatim(envelope: Json) | Generated(corrective: Corrective, clock: string, ids: Fresh) {
    /** The envelope whose JSON text becomes the prompt. */
    function Envelope(): Json {
      match this
      case Verbatim(e) => e
      case Generated(c, clock, ids) => Render(c, clock, ids)
    }
  }

  /** A POST to `/node-communicate` with `node_id` and the envelope as prompt. */
  datatype Dispatch = Dispatch(nodeId: Json, payload: Payload)

  /** What the handler answers; `NoResponse` is the ack-suppression path, which never replies. */
  datatype Status =
    | NoResponse
    | InitAckHandled
    | DemeritIssued
    | InvalidDestination
    | UnknownNodeNudged(unknownNode: Json)
    | ResponseGenerated(response: string)
    | UpstreamFailure
  {
    function HttpCode(): Option<int> {
      match this
      case NoResponse => None
      case InvalidDestination => Some(400)
      case UpstreamFailure => Some(500)
      case _ => Some(200)
    }
  }

  datatype Outcome = Outcome(status: Status, dispatches: seq<Dispatch>, log: seq<Json>, cooldowns: map<string, int>)

  /** How the routing block (the `try` of cloudMind.js:370-555) ended. */
  datatype Exit = Return(status: Status) | FellThrough | Threw

  datatype Block = Block(exit: Exit, log: seq<Json>, cooldowns: map<string, int>, sent: seq<Dispatch>)

  // ---------------------------------------------------------------------------
  // Reading the routed envelope
  // ---------------------------------------------------------------------------

  function Decode(reply: string, parse: string -> Decoded): Decoded {
    parse(StripFence(reply))
  }

  function Header(msg: Json): Json {
    OptGet(msg, "header")
  }

  predicate IsInit(msg: Json) {
    StrictEquals(Section(msg, "header", "message_type"), Str("init"))
  }

  /**
   The acknowledgement test on `intent.action`: a missing action is no
   acknowledgement, a string is one when its lower-case form contains "ack",
   and any other value throws because it has no `toLowerCase`.
   */
  function AckTest(msg: Json): (r: Eval<bool>)
    ensures r.TypeError? <==> !Nullish(Section(msg, "intent", "action")) && !Section(msg, "intent", "action").Str?
    ensures r == Value(true) <==> Section(msg, "intent", "action").Str? && Contains(Lower(Section(msg, "intent", "action").s), "ack")
  {
    var action := Section(msg, "intent", "action");
    if Nullish(action) then Value(false)
    else if action.Str? then Value(Contains(Lower(action.s), "ack"))
    else TypeError
  }

  /** The cooldown-table key of an envelope: its `header.message_id` as a property key. */
  function AckKey(msg: Json): string {
    ToString(Section(msg, "header", "message_id"))
  }

  /** A recorded, truthy timestamp less than the cooldown window old. */
  predicate CoolingDown(cooldowns: map<string, int>, key: string, now: int) {
    key in cooldowns && cooldowns[key] != 0 && now - cooldowns[key] < AckCooldownMs
  }

  predicate AuditorApproves(msg: Json, nodeId: Json) {
    && StrictEquals(nodeId, Str(Auditor))
    && StrictEquals(Section(msg, "audit_result", "compliance"), Bool(true))
    && StrictEquals(Section(msg, "audit_result", "recommended_action"), Str("relay"))
  }

  /** The predicate of `messageLog.find`: compares `entry.header?.message_id`. */
  predicate HasId(entry: Json, id: Json) {
    !Nullish(entry) && StrictEquals(Section(entry, "header", "message_id"), id)
  }

  /**
   `messageLog.find(msg => msg.header?.message_id === id)`, scanning from
   index `k`: the first entry carrying `id`; reading `header` of a null
   entry met on the way throws.
   */
  function FindFrom(log: seq<Json>, id: Json, k: nat): (r: Eval<Option<nat>>)
    requires k <= |log|
    ensures r.Value? && r.value.Some? ==>
              k <= r.value.value < |log| && HasId(log[r.value.value], id)
              && forall j :: k <= j < r.value.value ==> !Nullish(log[j]) && !HasId(log[j], id)
    ensures r == Value(None) ==> forall j :: k <= j < |log| ==> !Nullish(log[j]) && !HasId(log[j], id)
    ensures r.TypeError? ==>
              exists j :: k <= j < |log| && Nullish(log[j]) && forall i :: k <= i < j ==> !HasId(log[i], id)
    decreases |log| - k
  {
    if k == |log| then Value(None)
    else if Nullish(log[k]) then TypeError
    else if HasId(log[k], id) then Value(Some(k))
    else FindFrom(log, id, k + 1)
  }

  function FindById(log: seq<Json>, id: Json): Eval<Option<nat>> {
    FindFrom(log, id, 0)
  }

  // ---------------------------------------------------------------------------
  // The routing block
  // ---------------------------------------------------------------------------

  /** The log only ever grows by the routed envelope, once. */
  predicate AppendOnly(before: seq<Json>, after: seq<Json>, msg: Json) {
    after == before || after == before + [msg]
  }

  /**
   Only a nudge back to the producing node may be addressed to the
   translator, where "addressed to the translator" is the source's own test:
   the node id `===` the string "core:trn:main".
   */
  predicate SparesTranslator(sent: seq<Dispatch>, nodeId: Json) {
    forall i :: 0 <= i < |sent| && StrictEquals(sent[i].nodeId, Str(Translator)) ==> sent[i].nodeId == nodeId
  }

  /**
   cloudMind.js:487-554, reached with the destination `next` (the envelope's
   own, or the relayed original's): append, then either handle an unknown
   destination or forward in autonomous mode. The registry lookup converts
   `next` to a property key, which throws when it cannot be converted to
   text. The forward's console line shows `header.message_id`, so an
   envelope without a header, or with an id that cannot be converted to
   text, throws there instead of being forwarded.
   */
  function Deliver(msg: Json, next: Json, w: World, cooldowns: map<string, int>, sent: seq<Dispatch>,
                   ctx: Context, delivered: Dispatch -> bool): (b: Block)
    requires !Nullish(msg)
    ensures b.log == w.log + [msg]
    ensures b.cooldowns == cooldowns
    ensures |sent| <= |b.sent| <= |sent| + 1 && b.sent[..|sent|] == sent
    ensures SparesTranslator(sent, Str(Auditor)) ==> SparesTranslator(b.sent, Str(Auditor))
    ensures b.exit.Return? ==> b.exit.status == UnknownNodeNudged(next) && !Registered(w.registry, next)
    ensures !Registered(w.registry, next) ==> !b.exit.FellThrough?
    ensures Registered(w.registry, next) ==> !b.exit.Return?
    ensures !Printable(next) ==> b == Block(Threw, w.log + [msg], cooldowns, sent)
    ensures Printable(next) && Registered(w.registry, next) && w.autonomous && !StrictEquals(next, Str(Translator)) ==>
              && (b.sent == sent <==> Nullish(Header(msg)) || !Printable(Section(msg, "header", "message_id")))
              && (b.sent == sent ==> b.exit == Threw)
    ensures b.exit != Return(UpstreamFailure)
  {
    var log := w.log + [msg];
    if !Printable(next) then Block(Threw, log, cooldowns, sent)
    else if !Registered(w.registry, next) then
      match Get(Header(msg), "origin_node")
      case TypeError => Block(Threw, log, cooldowns, sent)
      case Value(origin) =>
        if StrictEquals(origin, Str(Conduit)) then
          var nudge := NodeNotFoundNudge(next, Section(msg, "trace", "thread_id"), Section(msg, "header", "message_id"));
          var d := Dispatch(Str(Conduit), Generated(nudge, ctx.clock, ctx.primary));
          Block(if delivered(d) then Return(UnknownNodeNudged(next)) else Threw, log, cooldowns, sent + [d])
        else Block(Return(UnknownNodeNudged(next)), log, cooldowns, sent)
    else if w.autonomous && !StrictEquals(next, Str(Translator)) then
      // the console line before the forward shows `header.message_id`
      match Get(Header(msg), "message_id")
      case TypeError => Block(Threw, log, cooldowns, sent)
      case Value(id) =>
        if !Printable(id) then Block(Threw, log, cooldowns, sent)
        else
          var d := Dispatch(next, Verbatim(msg));
          Block(if delivered(d) then FellThrough else Threw, log, cooldowns, sent + [d])
    else Block(FellThrough, log, cooldowns, sent)
  }

  /**
   cloudMind.js:410-476: the auditor approved relaying `original`, the
   logged envelope its trace points to. A relay to the translator earns the
   auditor a demerit, a missing or unregistered destination a 400, and any
   other destination receives the original before delivery goes on. A
   truthy destination that cannot be converted to a property key throws at
   the registry lookup.
   */
  function RelayOriginal(msg: Json, nodeId: Json, original: Json, w: World, cooldowns: map<string, int>,
                         ctx: Context, delivered: Dispatch -> bool): (b: Block)
    requires !Nullish(msg) && AuditorApproves(msg, nodeId) && Truthy(original)
    ensures AppendOnly(w.log, b.log, msg)
    ensures b.cooldowns == cooldowns
    ensures |b.sent| <= 2
    ensures SparesTranslator(b.sent, nodeId)
    ensures b.exit == Return(DemeritIssued) || b.exit == Return(InvalidDestination) ==> b.log == w.log
    ensures b.exit.Return? ==>
              b.exit.status == DemeritIssued || b.exit.status == InvalidDestination || b.exit.status.UnknownNodeNudged?
  {
    match Get(Header(original), "destination_node")
    case TypeError => Block(Threw, w.log, cooldowns, [])
    case Value(destination) =>
      if StrictEquals(destination, Str(Translator)) then
        match Get(Header(msg), "message_id")
        case TypeError => Block(Threw, w.log, cooldowns, [])
        case Value(parent) =>
          var demerit := TranslatorDemerit(Section(msg, "trace", "thread_id"), parent);
          var d := Dispatch(Str(Auditor), Generated(demerit, ctx.clock, ctx.primary));
          Block(if delivered(d) then Return(DemeritIssued) else Threw, w.log, cooldowns, [d])
      else if !Truthy(destination) then Block(Return(InvalidDestination), w.log, cooldowns, [])
      else if !Printable(destination) then Block(Threw, w.log, cooldowns, [])
      else if !Registered(w.registry, destination) then Block(Return(InvalidDestination), w.log, cooldowns, [])
      else
        var d := Dispatch(destination, Verbatim(original));
        if delivered(d) then Deliver(msg, destination, w, cooldowns, [d], ctx, delivered)
        else Block(Threw, w.log, cooldowns, [d])
  }

  /**
   cloudMind.js:403-484: the auditor's approved relay. When the original is
   found and truthy, its destination overwrites the routed envelope's for the
   rest of the block; a falsy entry that `find` matched is passed over.
   Without an original, the warning shows the id looked for, which throws
   when the id cannot be converted to text.
   */
  function AuditorGate(msg: Json, nodeId: Json, w: World, cooldowns: map<string, int>,
                       ctx: Context, delivered: Dispatch -> bool): (b: Block)
    requires !Nullish(msg)
    ensures AppendOnly(w.log, b.log, msg)
    ensures b.cooldowns == cooldowns
    ensures |b.sent| <= 2
    ensures SparesTranslator(b.sent, nodeId)
    ensures !AuditorApproves(msg, nodeId) ==>
              b == Deliver(msg, Section(msg, "header", "destination_node"), w, cooldowns, [], ctx, delivered)
    ensures b.exit == Return(DemeritIssued) || b.exit == Return(InvalidDestination) ==> b.log == w.log
    ensures b.exit.Return? ==>
              b.exit.status == DemeritIssued || b.exit.status == InvalidDestination || b.exit.status.UnknownNodeNudged?
  {
    var next := Section(msg, "header", "destination_node");
    if !AuditorApproves(msg, nodeId) then Deliver(msg, next, w, cooldowns, [], ctx, delivered)
    else
      match FindById(w.log, Section(msg, "trace", "original_message_id"))
      case TypeError => Block(Threw, w.log, cooldowns, [])
      case Value(None) => NoOriginal(msg, next, w, cooldowns, ctx, delivered)
      case Value(Some(i)) =>
        // `if (originalMessage)`: a falsy entry that matched is no original
        if Truthy(w.log[i]) then RelayOriginal(msg, nodeId, w.log[i], w, cooldowns, ctx, delivered)
        else NoOriginal(msg, next, w, cooldowns, ctx, delivered)
  }

  /**
   cloudMind.js:482: the relay found no original, and warns with the id it
   looked for before delivery goes on; an id that cannot be converted to
   text throws there.
   */
  function NoOriginal(msg: Json, next: Json, w: World, cooldowns: map<string, int>,
                      ctx: Context, delivered: Dispatch -> bool): (b: Block)
    requires !Nullish(msg)
    ensures Printable(Section(msg, "trace", "original_message_id")) ==>
              b == Deliver(msg, next, w, cooldowns, [], ctx, delivered)
    ensures !Printable(Section(msg, "trace", "original_message_id")) ==> b == Block(Threw, w.log, cooldowns, [])
  {
    if Printable(Section(msg, "trace", "original_message_id")) then Deliver(msg, next, w, cooldowns, [], ctx, delivered)
    else Block(Threw, w.log, cooldowns, [])
  }

  /**
   cloudMind.js:386-394: an acknowledgement repeated inside the window sends
   the producer a nudge to regenerate; nothing is logged and no timestamp
   moves. After its POST, `regenerateNudge` logs the producer and the
   acknowledgement's origin in a template literal (cloudMind.js:91), which
   throws when either cannot be converted to text.
   */
  function AckNudge(msg: Json, nodeId: Json, w: World, ctx: Context, delivered: Dispatch -> bool): (b: Block)
    requires !Nullish(msg)
    ensures b.log == w.log && b.cooldowns == w.cooldowns
    ensures |b.sent| <= 1 && forall i :: 0 <= i < |b.sent| ==> b.sent[i].nodeId == nodeId
    ensures b.exit == Return(NoResponse) || b.exit == Threw
    ensures b.exit == Return(NoResponse) ==> |b.sent| == 1
    ensures Nullish(Header(msg)) ==> b.exit == Threw && b.sent == []
    ensures !Nullish(Header(msg)) ==>
              && |b.sent| == 1
              && (b.exit == Return(NoResponse) <==>
                    delivered(b.sent[0]) && Printable(nodeId) && Printable(Section(msg, "header", "origin_node")))
  {
    match Get(Header(msg), "origin_node")
    case TypeError => Block(Threw, w.log, w.cooldowns, [])
    case Value(origin) =>
      var nudge := RegenerateNudge(nodeId, origin, Section(msg, "header", "message_id"));
      var d := Dispatch(nodeId, Generated(nudge, ctx.clock, ctx.primary));
      var exit := if delivered(d) && Printable(nodeId) && Printable(origin) then Return(NoResponse) else Threw;
      Block(exit, w.log, w.cooldowns, [d])
  }

  /**
   cloudMind.js:381-397: acknowledgement rate limiting. Reading
   `ackCooldowns[messageId]` converts the id to a property key, which throws
   when the id cannot be converted to text.
   */
  function AckGate(msg: Json, nodeId: Json, w: World, ctx: Context, delivered: Dispatch -> bool): (b: Block)
    requires !Nullish(msg)
    ensures AppendOnly(w.log, b.log, msg)
    ensures b.cooldowns == w.cooldowns || b.cooldowns == w.cooldowns[AckKey(msg) := ctx.now]
    ensures AckTest(msg) == Value(true) && !Printable(Section(msg, "header", "message_id")) ==>
              b == Block(Threw, w.log, w.cooldowns, [])
    ensures AckTest(msg) == Value(true) && Printable(Section(msg, "header", "message_id"))
            && !CoolingDown(w.cooldowns, AckKey(msg), ctx.now) ==>
              b.cooldowns == w.cooldowns[AckKey(msg) := ctx.now]
    ensures AckTest(msg) != Value(true) || !Printable(Section(msg, "header", "message_id"))
            || CoolingDown(w.cooldowns, AckKey(msg), ctx.now) ==>
              b.cooldowns == w.cooldowns
    ensures |b.sent| <= 2
    ensures SparesTranslator(b.sent, nodeId)
    ensures b.exit == Return(NoResponse) ==> b.log == w.log && |b.sent| == 1 && b.sent[0].nodeId == nodeId
    ensures b.exit != Return(UpstreamFailure) && b.exit != Return(InitAckHandled)
  {
    match AckTest(msg)
    case TypeError => Block(Threw, w.log, w.cooldowns, [])
    case Value(isAck) =>
      if !isAck then AuditorGate(msg, nodeId, w, w.cooldowns, ctx, delivered)
      else if !Printable(Section(msg, "header", "message_id")) then Block(Threw, w.log, w.cooldowns, [])
      else
        var key := AckKey(msg);
        if CoolingDown(w.cooldowns, key, ctx.now) then AckNudge(msg, nodeId, w, ctx, delivered)
        else AuditorGate(msg, nodeId, w, w.cooldowns[key := ctx.now], ctx, delivered)
  }

  /** cloudMind.js:370-555, the `try` block. */
  function RouteBlock(decoded: Decoded, nodeId: Json, w: World, ctx: Context, delivered: Dispatch -> bool): (b: Block)
    ensures decoded.Unparseable? ==> b == Block(Threw, w.log, w.cooldowns, [])
    ensures decoded.Parsed? ==> AppendOnly(w.log, b.log, decoded.value)
    ensures decoded.Parsed? ==> b.cooldowns == w.cooldowns || b.cooldowns == w.cooldowns[AckKey(decoded.value) := ctx.now]
    ensures |b.sent| <= 2
    ensures SparesTranslator(b.sent, nodeId)
    ensures b.exit == Return(InitAckHandled) <==> decoded.Parsed? && !Nullish(decoded.value) && IsInit(decoded.value)
    ensures b.exit == Return(InitAckHandled) ==> b == Block(Return(InitAckHandled), w.log, w.cooldowns, [])
    ensures b.exit != Return(UpstreamFailure)
  {
    match decoded
    case Unparseable => Block(Threw, w.log, w.cooldowns, [])
    case Parsed(msg) =>
      if Nullish(msg) then Block(Threw, w.log, w.cooldowns, [])
      else if IsInit(msg) then Block(Return(InitAckHandled), w.log, w.cooldowns, [])
      else AckGate(msg, nodeId, w, ctx, delivered)
  }

  /** The demerit POST of the exception path (cloudMind.js:556-599). */
  function DemeritDispatch(nodeId: Json, ctx: Context): Dispatch {
    Dispatch(Str(Auditor), Generated(ParseDemerit(nodeId), ctx.clock, ctx.fallback))
  }

  /**
   The end of the handler once the block is over: a `return` inside it has
   answered already; falling through answers with the raw reply; an exception
   sends the demerit and then answers, or, if that POST fails too, the outer
   handler answers 500.
   */
  function Finish(b: Block, reply: string, nodeId: Json, ctx: Context, delivered: Dispatch -> bool): (o: Outcome)
    ensures o.log == b.log && o.cooldowns == b.cooldowns
    ensures b.exit.Return? ==> o.status == b.exit.status && o.dispatches == b.sent
    ensures b.exit.FellThrough? ==> o.status == ResponseGenerated(reply) && o.dispatches == b.sent
    ensures b.exit.Threw? ==> o.dispatches == b.sent + [DemeritDispatch(nodeId, ctx)]
    ensures b.exit.Threw? ==> o.status == (if delivered(DemeritDispatch(nodeId, ctx)) then ResponseGenerated(reply) else UpstreamFailure)
    ensures SparesTranslator(b.sent, nodeId) ==> SparesTranslator(o.dispatches, nodeId)
    ensures o.status == InitAckHandled <==> b.exit == Return(InitAckHandled)
    ensures o.status == UpstreamFailure && b.exit != Return(UpstreamFailure) ==>
              |o.dispatches| > 0 && !delivered(o.dispatches[|o.dispatches| - 1])
  {
    match b.exit
    case Return(status) => Outcome(status, b.sent, b.log, b.cooldowns)
    case FellThrough => Outcome(ResponseGenerated(reply), b.sent, b.log, b.cooldowns)
    case Threw =>
      var d := DemeritDispatch(nodeId, ctx);
      Outcome(if delivered(d) then ResponseGenerated(reply) else UpstreamFailure, b.sent + [d], b.log, b.cooldowns)
  }

  /** The handler's answer once the cleaned reply has gone through `JSON.parse` with result `decoded`. */
  function Answer(decoded: Decoded, reply: string, nodeId: Json, w: World, ctx: Context,
                  delivered: Dispatch -> bool): (o: Outcome)
    ensures |o.dispatches| <= 3
    ensures SparesTranslator(o.dispatches, nodeId)
    ensures o.status == UpstreamFailure ==> |o.dispatches| > 0 && !delivered(o.dispatches[|o.dispatches| - 1])
  {
    Finish(RouteBlock(decoded, nodeId, w, ctx, delivered), reply, nodeId, ctx, delivered)
  }

  /**
   The whole decision for one model reply: at most three POSTs, none to the
   translator unless it produced the reply, and a 500 only after a POST that
   failed.
   */
  function Route(reply: string, parse: string -> Decoded, nodeId: Json, w: World, ctx: Context,
                 delivered: Dispatch -> bool): (o: Outcome)
    ensures |o.dispatches| <= 3
    ensures SparesTranslator(o.dispatches, nodeId)
    ensures o.status == UpstreamFailure ==> |o.dispatches| > 0 && !delivered(o.dispatches[|o.dispatches| - 1])
  {
    Answer(Decode(reply, parse), reply, nodeId, w, ctx, delivered)
  }

  /**
   The message log only ever grows by the routed envelope, once, and the
   cooldown table only by the envelope's timestamp; a reply that does not
   parse changes neither.
   */
  lemma RouteState(reply: string, parse: string -> Decoded, nodeId: Json, w: World, ctx: Context,
                   delivered: Dispatch -> bool)
    ensures var o := Route(reply, parse, nodeId, w, ctx, delivered);
            && (Decode(reply, parse).Unparseable? ==> o.log == w.log && o.cooldowns == w.cooldowns)
            && (Decode(reply, parse).Parsed? ==> AppendOnly(w.log, o.log, Decode(reply, parse).value))
            && (Decode(reply, parse).Parsed? ==>
                  o.cooldowns == w.cooldowns || o.cooldowns == w.cooldowns[AckKey(Decode(reply, parse).value) := ctx.now])
  {
    var b := RouteBlock(Decode(reply, parse), nodeId, w, ctx, delivered);
    assert Route(reply, parse, nodeId, w, ctx, delivered) == Finish(b, reply, nodeId, ctx, delivered);
  }

  /** `init_ack_handled` is answered exactly to an init envelope, and then nothing else happens. */
  lemma RouteInit(reply: string, parse: string -> Decoded, nodeId: Json, w: World, ctx: Context,
                  delivered: Dispatch -> bool)
    ensures var o := Route(reply, parse, nodeId, w, ctx, delivered);
            && (o.status == InitAckHandled <==>
                  Decode(reply, parse).Parsed? && !Nullish(Decode(reply, parse).value) && IsInit(Decode(reply, parse).value))
            && (o.status == InitAckHandled ==> o == Outcome(InitAckHandled, [], w.log, w.cooldowns))
  {
    var b := RouteBlock(Decode(reply, parse), nodeId, w, ctx, delivered);
    assert Route(reply, parse, nodeId, w, ctx, delivered) == Finish(b, reply, nodeId, ctx, delivered);
  }
}

=== FILE: router_facts.dfy ===
/**
 The routing rules of `/node-communicate` (cloudMind.js:370-602), each stated
 as one scenario over `Router.Answer`, the decision for a reply that parsed
 to a given value: which status the handler answers, which POSTs it sends,
 and what becomes of the message log and the cooldown table.
 Unless a scenario is about a failing POST, every POST is taken to complete.
 */
module RouterFacts {
  import opened Wrappers
  import opened Json
  import opened Envelope
  import opened Router

  /** Every POST the handler awaits completes. */
  ghost predicate AllDelivered(delivered: Dispatch -> bool) {
    forall d :: delivered(d)
  }

  /** A parsed, non-init envelope whose `intent.action` is not an acknowledgement. */
  predicate Plain(msg: Json) {
    !Nullish(msg) && !IsInit(msg) && AckTest(msg) == Value(false)
  }

  /** `header.message_id` can be converted to text, as a property key or in a console line. */
  predicate IdPrints(msg: Json) {
    Printable(Section(msg, "header", "message_id"))
  }

  /** The console line before the autonomous forward (cloudMind.js:549) can be written. */
  predicate ForwardLogs(msg: Json) {
    !Nullish(Header(msg)) && IdPrints(msg)
  }

  /** The closing console line of `regenerateNudge` (cloudMind.js:91) can show both endpoints. */
  predicate NudgeLogs(msg: Json, nodeId: Json) {
    Printable(nodeId) && Printable(Section(msg, "header", "origin_node"))
  }

  /** A plain envelope reaches the auditor's rule with the cooldown table untouched. */
  lemma PlainBlock(msg: Json, nodeId: Json, w: World, ctx: Context, delivered: Dispatch -> bool)
    requires Plain(msg)
    ensures RouteBlock(Parsed(msg), nodeId, w, ctx, delivered) == AuditorGate(msg, nodeId, w, w.cooldowns, ctx, delivered)
  {
  }

  /** A plain envelope the auditor does not approve goes straight to delivery, to its own destination. */
  lemma UnapprovedBlock(msg: Json, nodeId: Json, w: World, ctx: Context, delivered: Dispatch -> bool)
    requires Plain(msg) && !AuditorApproves(msg, nodeId)
    ensures RouteBlock(Parsed(msg), nodeId, w, ctx, delivered)
            == Deliver(msg, Section(msg, "header", "destination_node"), w, w.cooldowns, [], ctx, delivered)
  {
    PlainBlock(msg, nodeId, w, ctx, delivered);
  }

  /**
   A routing block that throws before sending anything ends with exactly one
   POST, the demerit to the auditor, and the raw reply as the answer.
   */
  lemma ThrownBlockDemerited(decoded: Decoded, reply: string, nodeId: Json, w: World, ctx: Context,
                             delivered: Dispatch -> bool, log: seq<Json>)
    requires RouteBlock(decoded, nodeId, w, ctx, delivered) == Block(Threw, log, w.cooldowns, [])
    requires AllDelivered(delivered)
    ensures Answer(decoded, reply, nodeId, w, ctx, delivered)
            == Outcome(ResponseGenerated(reply), [DemeritDispatch(nodeId, ctx)], log, w.cooldowns)
  {
    var b := Block(Threw, log, w.cooldowns, []);
    assert delivered(DemeritDispatch(nodeId, ctx));
    assert Finish(b, reply, nodeId, ctx, delivered)
        == Outcome(ResponseGenerated(reply), [DemeritDispatch(nodeId, ctx)], log, w.cooldowns);
  }

  // ---------------------------------------------------------------------------
  // Init suppression and acknowledgement rate limiting
  // ---------------------------------------------------------------------------

  /**
   An init envelope is answered with `init_ack_handled` before any other
   rule: nothing is logged, recorded or sent.
   */
  lemma InitSuppressed(reply: string, msg: Json, nodeId: Json, w: World, ctx: Context,
                       delivered: Dispatch -> bool)
    requires StrictEquals(Section(msg, "header", "message_type"), Str("init"))
    ensures Answer(Parsed(msg), reply, nodeId, w, ctx, delivered) == Outcome(InitAckHandled, [], w.log, w.cooldowns)
    ensures Answer(Parsed(msg), reply, nodeId, w, ctx, delivered).status.HttpCode() == Some(200)
  {
    assert !Nullish(msg);
    var b := Block(Return(InitAckHandled), w.log, w.cooldowns, []);
    assert RouteBlock(Parsed(msg), nodeId, w, ctx, delivered) == b;
    var o := Outcome(InitAckHandled, [], w.log, w.cooldowns);
    assert Finish(b, reply, nodeId, ctx, delivered) == o;
    assert o.status.HttpCode() == Some(200);
  }

  /** The regeneration nudge a repeated acknowledgement earns its producer. */
  function ProducerNudge(msg: Json, nodeId: Json, ctx: Context): Dispatch {
    Dispatch(nodeId, Generated(
      RegenerateNudge(nodeId, Section(msg, "header", "origin_node"), Section(msg, "header", "message_id")),
      ctx.clock, ctx.primary))
  }

  /**
   The routing block of a repeated acknowledgement: the cooldown lookup
   throws on an id that cannot be a property key; otherwise the nudge goes
   out, and the block returns without an answer unless the nudge's console
   line throws.
   */
  lemma RepeatedAckBlock(msg: Json, nodeId: Json, w: World, ctx: Context, delivered: Dispatch -> bool)
    requires !Nullish(msg) && !IsInit(msg) && !Nullish(Header(msg))
    requires AckTest(msg) == Value(true)
    requires CoolingDown(w.cooldowns, AckKey(msg), ctx.now)
    requires AllDelivered(delivered)
    ensures !IdPrints(msg) ==> RouteBlock(Parsed(msg), nodeId, w, ctx, delivered) == Block(Threw, w.log, w.cooldowns, [])
    ensures IdPrints(msg) ==>
              RouteBlock(Parsed(msg), nodeId, w, ctx, delivered)
              == Block(if NudgeLogs(msg, nodeId) then Return(NoResponse) else Threw, w.log, w.cooldowns,
                       [ProducerNudge(msg, nodeId, ctx)])
  {
    if IdPrints(msg) {
      assert delivered(ProducerNudge(msg, nodeId, ctx));
      assert AckGate(msg, nodeId, w, ctx, delivered)
          == Block(if NudgeLogs(msg, nodeId) then Return(NoResponse) else Threw, w.log, w.cooldowns,
                   [ProducerNudge(msg, nodeId, ctx)]);
    }
  }

  /**
   A repeated acknowledgement inside the cooldown window is not routed: the
   producing node is sent a regeneration nudge that claims to come from it
   and to go to the envelope's `origin_node`, and the request is left
   without an answer. Log and cooldown table stay as they were. Two
   conversions to text can throw on the way, and each ends in a demerit and
   an answer: the cooldown lookup of the id, before the nudge, and the
   nudge's console line, after it.
   */
  lemma RepeatedAckNudgesProducer(reply: string, msg: Json, nodeId: Json, w: World,
                                  ctx: Context, delivered: Dispatch -> bool)
    requires !Nullish(msg) && !IsInit(msg) && !Nullish(Header(msg))
    requires AckTest(msg) == Value(true)
    requires CoolingDown(w.cooldowns, AckKey(msg), ctx.now)
    requires AllDelivered(delivered)
    ensures IdPrints(msg) && NudgeLogs(msg, nodeId) ==>
              Answer(Parsed(msg), reply, nodeId, w, ctx, delivered)
              == Outcome(NoResponse, [Dispatch(nodeId, Generated(
                   RegenerateNudge(nodeId, Section(msg, "header", "origin_node"), Section(msg, "header", "message_id")),
                   ctx.clock, ctx.primary))], w.log, w.cooldowns)
    ensures IdPrints(msg) && NudgeLogs(msg, nodeId) ==>
              Answer(Parsed(msg), reply, nodeId, w, ctx, delivered).status.HttpCode().None?
    ensures IdPrints(msg) && !NudgeLogs(msg, nodeId) ==>
              Answer(Parsed(msg), reply, nodeId, w, ctx, delivered)
              == Outcome(ResponseGenerated(reply), [ProducerNudge(msg, nodeId, ctx), DemeritDispatch(nodeId, ctx)],
                         w.log, w.cooldowns)
    ensures !IdPrints(msg) ==>
              Answer(Parsed(msg), reply, nodeId, w, ctx, delivered)
              == Outcome(ResponseGenerated(reply), [DemeritDispatch(nodeId, ctx)], w.log, w.cooldowns)
  {
    RepeatedAckBlock(msg, nodeId, w, ctx, delivered);
    if !IdPrints(msg) {
      ThrownBlockDemerited(Parsed(msg), reply, nodeId, w, ctx, delivered, w.log);
    } else if NudgeLogs(msg, nodeId) {
      var b := Block(Return(NoResponse), w.log, w.cooldowns, [ProducerNudge(msg, nodeId, ctx)]);
      assert Finish(b, reply, nodeId, ctx, delivered)
          == Outcome(NoResponse, [ProducerNudge(msg, nodeId, ctx)], w.log, w.cooldowns);
    } else {
      var b := Block(Threw, w.log, w.cooldowns, [ProducerNudge(msg, nodeId, ctx)]);
      assert delivered(DemeritDispatch(nodeId, ctx));
      assert Finish(b, reply, nodeId, ctx, delivered)
          == Outcome(ResponseGenerated(reply), [ProducerNudge(msg, nodeId, ctx), DemeritDispatch(nodeId, ctx)],
                     w.log, w.cooldowns);
    }
  }

  /**
   A repeated acknowledgement whose envelope has no header cannot name the
   nudge's destination: the read of `header.origin_node` throws, and the
   auditor is sent a demerit instead.
   */
  lemma RepeatedAckWithoutHeaderDemerited(reply: string, msg: Json, nodeId: Json, w: World,
                                          ctx: Context, delivered: Dispatch -> bool)
    requires !Nullish(msg) && Nullish(Header(msg))
    requires AckTest(msg) == Value(true)
    requires CoolingDown(w.cooldowns, AckKey(msg), ctx.now)
    requires AllDelivered(delivered)
    ensures Answer(Parsed(msg), reply, nodeId, w, ctx, delivered)
            == Outcome(ResponseGenerated(reply), [DemeritDispatch(nodeId, ctx)], w.log, w.cooldowns)
  {
    assert !IsInit(msg);
    assert Section(msg, "header", "message_id") == Undefined;
    assert AckGate(msg, nodeId, w, ctx, delivered) == Block(Threw, w.log, w.cooldowns, []);
    ThrownBlockDemerited(Parsed(msg), reply, nodeId, w, ctx, delivered, w.log);
  }

  /**
   An acknowledgement outside the cooldown window is timestamped with the
   current time; an id that cannot be a property key throws at the lookup
   instead.
   */
  lemma AckRecorded(reply: string, msg: Json, nodeId: Json, w: World, ctx: Context,
                    delivered: Dispatch -> bool)
    requires !Nullish(msg) && !IsInit(msg)
    requires AckTest(msg) == Value(true)
    requires !CoolingDown(w.cooldowns, AckKey(msg), ctx.now)
    ensures IdPrints(msg) ==>
              Answer(Parsed(msg), reply, nodeId, w, ctx, delivered).cooldowns == w.cooldowns[AckKey(msg) := ctx.now]
    ensures !IdPrints(msg) ==> RouteBlock(Parsed(msg), nodeId, w, ctx, delivered) == Block(Threw, w.log, w.cooldowns, [])
  {
    assert RouteBlock(Parsed(msg), nodeId, w, ctx, delivered) == AckGate(msg, nodeId, w, ctx, delivered);
  }

  /** The window: a recorded truthy timestamp holds acknowledgements back for 5000 ms, and no longer. */
  lemma CooldownWindow(cooldowns: map<string, int>, key: string, recorded: int, now: int)
    requires recorded != 0
    ensures CoolingDown(cooldowns[key := recorded], key, now) <==> now < recorded + 5000
  {
  }

  /**
   The same acknowledgement routed twice: the first time it is recorded; if
   it comes back less than 5000 ms later (and the first time was not the
   epoch itself) it is answered with a regeneration nudge and nothing else,
   unless the id or the nudge's endpoints cannot be converted to text.
   */
  lemma AckTwiceWithinWindow(reply: string, msg: Json, nodeId: Json, w: World,
                             ctx1: Context, ctx2: Context, delivered: Dispatch -> bool)
    requires !Nullish(msg) && !IsInit(msg) && !Nullish(Header(msg))
    requires AckTest(msg) == Value(true)
    requires !CoolingDown(w.cooldowns, AckKey(msg), ctx1.now)
    requires ctx1.now != 0 && ctx1.now <= ctx2.now < ctx1.now + AckCooldownMs
    requires AllDelivered(delivered)
    ensures var o1 := Answer(Parsed(msg), reply, nodeId, w, ctx1, delivered);
            var o2 := Answer(Parsed(msg), reply, nodeId, w.(log := o1.log, cooldowns := o1.cooldowns), ctx2, delivered);
            && o2.log == o1.log
            && (o2.status == NoResponse <==> IdPrints(msg) && NudgeLogs(msg, nodeId))
            && (IdPrints(msg) ==> |o2.dispatches| >= 1 && o2.dispatches[0].nodeId == nodeId)
  {
    var o1 := Answer(Parsed(msg), reply, nodeId, w, ctx1, delivered);
    AckRecorded(reply, msg, nodeId, w, ctx1, delivered);
    var w2 := w.(log := o1.log, cooldowns := o1.cooldowns);
    if IdPrints(msg) {
      assert CoolingDown(w2.cooldowns, AckKey(msg), ctx2.now);
      RepeatedAckNudgesProducer(reply, msg, nodeId, w2, ctx2, delivered);
    } else {
      ThrownBlockDemerited(Parsed(msg), reply, nodeId, w, ctx1, delivered, w.log);
      assert w2 == w;
      assert RouteBlock(Parsed(msg), nodeId, w2, ctx2, delivered) == Block(Threw, w.log, w.cooldowns, []);
      ThrownBlockDemerited(Parsed(msg), reply, nodeId, w2, ctx2, delivered, w.log);
    }
  }

  // ---------------------------------------------------------------------------
  // The auditor's relay
  // ---------------------------------------------------------------------------

  /** The auditor approves relaying the original message `original` of the log. */
  predicate ApprovedRelayOf(msg: Json, nodeId: Json, w: World, i: nat) {
    && AuditorApproves(msg, nodeId)
    && FindById(w.log, Section(msg, "trace", "original_message_id")) == Value(Some(i))
    && i < |w.log|
    && !Nullish(Header(w.log[i]))
  }

  /** The demerit the auditor earns for approving a relay to the translator. */
  function TranslatorDemeritDispatch(msg: Json, ctx: Context): Dispatch {
    Dispatch(Str(Auditor), Generated(
      TranslatorDemerit(Section(msg, "trace", "thread_id"), Section(msg, "header", "message_id")),
      ctx.clock, ctx.primary))
  }

  /** The routing block of an approved relay of an original addressed to the translator returns early. */
  lemma AuditorTranslatorDemeritBlock(msg: Json, nodeId: Json, w: World, ctx: Context, delivered: Dispatch -> bool, i: nat)
    requires Plain(msg) && !Nullish(Header(msg))
    requires ApprovedRelayOf(msg, nodeId, w, i)
    requires Section(w.log[i], "header", "destination_node") == Str(Translator)
    requires AllDelivered(delivered)
    ensures RouteBlock(Parsed(msg), nodeId, w, ctx, delivered)
            == Block(Return(DemeritIssued), w.log, w.cooldowns, [TranslatorDemeritDispatch(msg, ctx)])
  {
    assert delivered(TranslatorDemeritDispatch(msg, ctx));
    assert AuditorGate(msg, nodeId, w, w.cooldowns, ctx, delivered)
        == Block(Return(DemeritIssued), w.log, w.cooldowns, [TranslatorDemeritDispatch(msg, ctx)]);
  }

  /**
   An approved relay whose original was addressed to the translator earns
   the auditor a demerit: nothing is relayed or logged.
   */
  lemma AuditorTranslatorDemerit(reply: string, msg: Json, nodeId: Json, w: World,
                                 ctx: Context, delivered: Dispatch -> bool, i: nat)
    requires Plain(msg) && !Nullish(Header(msg))
    requires ApprovedRelayOf(msg, nodeId, w, i)
    requires Section(w.log[i], "header", "destination_node") == Str(Translator)
    requires AllDelivered(delivered)
    ensures Answer(Parsed(msg), reply, nodeId, w, ctx, delivered)
            == Outcome(DemeritIssued, [Dispatch(Str(Auditor), Generated(
                 TranslatorDemerit(Section(msg, "trace", "thread_id"), Section(msg, "header", "message_id")),
                 ctx.clock, ctx.primary))], w.log, w.cooldowns)
  {
    AuditorTranslatorDemeritBlock(msg, nodeId, w, ctx, delivered, i);
  }

  /**
   The routing block of an approved relay to an invalid destination returns
   400 at once; a truthy destination that cannot be a property key throws at
   the registry lookup instead.
   */
  lemma AuditorInvalidDestinationBlock(msg: Json, nodeId: Json, w: World, ctx: Context, delivered: Dispatch -> bool, i: nat)
    requires Plain(msg)
    requires ApprovedRelayOf(msg, nodeId, w, i)
    requires !StrictEquals(Section(w.log[i], "header", "destination_node"), Str(Translator))
    requires !Truthy(Section(w.log[i], "header", "destination_node"))
             || !Registered(w.registry, Section(w.log[i], "header", "destination_node"))
    ensures !Truthy(Section(w.log[i], "header", "destination_node")) || Printable(Section(w.log[i], "header", "destination_node")) ==>
              RouteBlock(Parsed(msg), nodeId, w, ctx, delivered) == Block(Return(InvalidDestination), w.log, w.cooldowns, [])
    ensures Truthy(Section(w.log[i], "header", "destination_node")) && !Printable(Section(w.log[i], "header", "destination_node")) ==>
              RouteBlock(Parsed(msg), nodeId, w, ctx, delivered) == Block(Threw, w.log, w.cooldowns, [])
  {
    PlainBlock(msg, nodeId, w, ctx, delivered);
  }

  /**
   An approved relay whose original names a falsy or unregistered
   destination is answered 400, and nothing is relayed or logged. A truthy
   destination that cannot be a property key is demerited instead.
   */
  lemma AuditorInvalidDestination(reply: string, msg: Json, nodeId: Json, w: World,
                                  ctx: Context, delivered: Dispatch -> bool, i: nat)
    requires Plain(msg)
    requires ApprovedRelayOf(msg, nodeId, w, i)
    requires !StrictEquals(Section(w.log[i], "header", "destination_node"), Str(Translator))
    requires !Truthy(Section(w.log[i], "header", "destination_node"))
             || !Registered(w.registry, Section(w.log[i], "header", "destination_node"))
    ensures !Truthy(Section(w.log[i], "header", "destination_node")) || Printable(Section(w.log[i], "header", "destination_node")) ==>
              Answer(Parsed(msg), reply, nodeId, w, ctx, delivered) == Outcome(InvalidDestination, [], w.log, w.cooldowns)
    ensures !Truthy(Section(w.log[i], "header", "destination_node")) || Printable(Section(w.log[i], "header", "destination_node")) ==>
              Answer(Parsed(msg), reply, nodeId, w, ctx, delivered).status.HttpCode() == Some(400)
    ensures Truthy(Section(w.log[i], "header", "destination_node")) && !Printable(Section(w.log[i], "header", "destination_node")) ==>
              var o := Answer(Parsed(msg), reply, nodeId, w, ctx, delivered);
              o.dispatches == [DemeritDispatch(nodeId, ctx)] && o.log == w.log
  {
    AuditorInvalidDestinationBlock(msg, nodeId, w, ctx, delivered, i);
    var destination := Section(w.log[i], "header", "destination_node");
    if !Truthy(destination) || Printable(destination) {
      var b := Block(Return(InvalidDestination), w.log, w.cooldowns, []);
      var o := Outcome(InvalidDestination, [], w.log, w.cooldowns);
      assert Finish(b, reply, nodeId, ctx, delivered) == o;
      assert o.status.HttpCode() == Some(400);
    }
  }

  /** The POSTs of an approved relay: the original, then (in autonomous mode) the auditor's envelope. */
  function RelayDispatches(msg: Json, original: Json, autonomous: bool): seq<Dispatch> {
    var destination := Section(original, "header", "destination_node");
    [Dispatch(destination, Verbatim(original))] + (if autonomous then [Dispatch(destination, Verbatim(msg))] else [])
  }

  /**
   The routing block of an approved relay to a registered destination falls
   through, unless the forward of the auditor envelope throws on its console
   line after the original went out. A destination that cannot be a property
   key throws at the registry lookup, before anything is sent.
   */
  lemma AuditorRelaysBlock(msg: Json, nodeId: Json, w: World, ctx: Context, delivered: Dispatch -> bool, i: nat)
    requires Plain(msg)
    requires ApprovedRelayOf(msg, nodeId, w, i)
    requires Truthy(Section(w.log[i], "header", "destination_node"))
    requires Registered(w.registry, Section(w.log[i], "header", "destination_node"))
    requires Section(w.log[i], "header", "destination_node") != Str(Translator)
    requires AllDelivered(delivered)
    ensures !Printable(Section(w.log[i], "header", "destination_node")) ==>
              RouteBlock(Parsed(msg), nodeId, w, ctx, delivered) == Block(Threw, w.log, w.cooldowns, [])
    ensures Printable(Section(w.log[i], "header", "destination_node")) && !(w.autonomous && !ForwardLogs(msg)) ==>
              RouteBlock(Parsed(msg), nodeId, w, ctx, delivered)
              == Block(FellThrough, w.log + [msg], w.cooldowns, RelayDispatches(msg, w.log[i], w.autonomous))
    ensures Printable(Section(w.log[i], "header", "destination_node")) && w.autonomous && !ForwardLogs(msg) ==>
              RouteBlock(Parsed(msg), nodeId, w, ctx, delivered)
              == Block(Threw, w.log + [msg], w.cooldowns, RelayDispatches(msg, w.log[i], false))
  {
    var destination := Section(w.log[i], "header", "destination_node");
    assert !StrictEquals(destination, Str(Translator));
    PlainBlock(msg, nodeId, w, ctx, delivered);
    if Printable(destination) {
      var d := Dispatch(destination, Verbatim(w.log[i]));
      assert delivered(d);
      var b := Deliver(msg, destination, w, w.cooldowns, [d], ctx, delivered);
      assert AuditorGate(msg, nodeId, w, w.cooldowns, ctx, delivered) == b;
      if w.autonomous && ForwardLogs(msg) {
        var f := Dispatch(destination, Verbatim(msg));
        assert delivered(f);
        assert b == Block(FellThrough, w.log + [msg], w.cooldowns, [d, f]);
      } else if w.autonomous {
        assert b == Block(Threw, w.log + [msg], w.cooldowns, [d]);
      } else {
        assert b == Block(FellThrough, w.log + [msg], w.cooldowns, [d]);
      }
    }
  }

  /**
   An approved relay to a registered destination sends the ORIGINAL message
   there, then logs the auditor's envelope and routes it on as if it were
   addressed to that destination: in autonomous mode it is forwarded there
   too. An auditor envelope without a header, or whose id cannot be
   converted to text, cannot be forwarded: the forward's console line
   throws, and the auditor is sent a demerit instead. A destination that
   cannot be a property key is demerited before anything is relayed.
   */
  lemma AuditorRelays(reply: string, msg: Json, nodeId: Json, w: World,
                      ctx: Context, delivered: Dispatch -> bool, i: nat)
    requires Plain(msg)
    requires ApprovedRelayOf(msg, nodeId, w, i)
    requires Truthy(Section(w.log[i], "header", "destination_node"))
    requires Registered(w.registry, Section(w.log[i], "header", "destination_node"))
    requires Section(w.log[i], "header", "destination_node") != Str(Translator)
    requires AllDelivered(delivered)
    ensures !Printable(Section(w.log[i], "header", "destination_node")) ==>
              Answer(Parsed(msg), reply, nodeId, w, ctx, delivered)
              == Outcome(ResponseGenerated(reply), [DemeritDispatch(nodeId, ctx)], w.log, w.cooldowns)
    ensures Printable(Section(w.log[i], "header", "destination_node")) && !(w.autonomous && !ForwardLogs(msg)) ==>
              Answer(Parsed(msg), reply, nodeId, w, ctx, delivered)
              == Outcome(ResponseGenerated(reply), RelayDispatches(msg, w.log[i], w.autonomous), w.log + [msg], w.cooldowns)
    ensures Printable(Section(w.log[i], "header", "destination_node")) && w.autonomous && !ForwardLogs(msg) ==>
              Answer(Parsed(msg), reply, nodeId, w, ctx, delivered)
              == Outcome(ResponseGenerated(reply), RelayDispatches(msg, w.log[i], false) + [DemeritDispatch(nodeId, ctx)],
                         w.log + [msg], w.cooldowns)
  {
    AuditorRelaysBlock(msg, nodeId, w, ctx, delivered, i);
    if !Printable(Section(w.log[i], "header", "destination_node")) {
      ThrownBlockDemerited(Parsed(msg), reply, nodeId, w, ctx, delivered, w.log);
    } else if w.autonomous && !ForwardLogs(msg) {
      var b := Block(Threw, w.log + [msg], w.cooldowns, RelayDispatches(msg, w.log[i], false));
      assert delivered(DemeritDispatch(nodeId, ctx));
      assert Finish(b, reply, nodeId, ctx, delivered)
             == Outcome(ResponseGenerated(reply), RelayDispatches(msg, w.log[i], false) + [DemeritDispatch(nodeId, ctx)],
                        w.log + [msg], w.cooldowns);
    }
  }

  /**
   `find` can match a falsy entry (a reply of `0`, `false` or `""` is logged
   before it throws, and its `header?.message_id` is undefined). Such an
   entry is no original: the relay is skipped and the envelope is routed to
   its own destination.
   */
  lemma AuditorFalsyOriginalSkipped(reply: string, msg: Json, nodeId: Json, w: World,
                                    ctx: Context, delivered: Dispatch -> bool, i: nat)
    requires Plain(msg)
    requires AuditorApproves(msg, nodeId)
    requires FindById(w.log, Section(msg, "trace", "original_message_id")) == Value(Some(i))
    requires i < |w.log| && !Truthy(w.log[i])
    ensures RouteBlock(Parsed(msg), nodeId, w, ctx, delivered)
            == Deliver(msg, Section(msg, "header", "destination_node"), w, w.cooldowns, [], ctx, delivered)
    ensures Answer(Parsed(msg), reply, nodeId, w, ctx, delivered).log == w.log + [msg]
  {
    PlainBlock(msg, nodeId, w, ctx, delivered);
  }

  /**
   An approved relay whose original is not in the log is routed like any
   other envelope, once the warning has shown the id looked for; an id that
   cannot be converted to text throws there.
   */
  lemma AuditorOriginalMissing(reply: string, msg: Json, nodeId: Json, w: World,
                               ctx: Context, delivered: Dispatch -> bool)
    requires Plain(msg)
    requires AuditorApproves(msg, nodeId)
    requires FindById(w.log, Section(msg, "trace", "original_message_id")) == Value(None)
    ensures Printable(Section(msg, "trace", "original_message_id")) ==>
              RouteBlock(Parsed(msg), nodeId, w, ctx, delivered)
              == Deliver(msg, Section(msg, "header", "destination_node"), w, w.cooldowns, [], ctx, delivered)
    ensures Printable(Section(msg, "trace", "original_message_id")) ==>
              Answer(Parsed(msg), reply, nodeId, w, ctx, delivered).log == w.log + [msg]
    ensures !Printable(Section(msg, "trace", "original_message_id")) ==>
              RouteBlock(Parsed(msg), nodeId, w, ctx, delivered) == Block(Threw, w.log, w.cooldowns, [])
  {
    assert RouteBlock(Parsed(msg), nodeId, w, ctx, delivered) == AuditorGate(msg, nodeId, w, w.cooldowns, ctx, delivered);
  }

  /**
   The original is looked up with `messageLog.find`, which reads the header
   of every entry before the match: a null entry met first makes the lookup
   throw, and the auditor is sent a demerit. The relay itself never logs
   `null` (a null reply, broadcast or send throws before its push), so this
   state arises only from a log the relay did not build.
   */
  lemma AuditorLookupThrows(reply: string, msg: Json, nodeId: Json, w: World,
                            ctx: Context, delivered: Dispatch -> bool)
    requires Plain(msg)
    requires AuditorApproves(msg, nodeId)
    requires |w.log| > 0 && w.log[0] == Null
    requires AllDelivered(delivered)
    ensures Answer(Parsed(msg), reply, nodeId, w, ctx, delivered)
            == Outcome(ResponseGenerated(reply), [DemeritDispatch(nodeId, ctx)], w.log, w.cooldowns)
  {
    assert FindById(w.log, Section(msg, "trace", "original_message_id")).TypeError?;
    PlainBlock(msg, nodeId, w, ctx, delivered);
    assert RouteBlock(Parsed(msg), nodeId, w, ctx, delivered) == Block(Threw, w.log, w.cooldowns, []);
    ThrownBlockDemerited(Parsed(msg), reply, nodeId, w, ctx, delivered, w.log);
  }

  // ---------------------------------------------------------------------------
  // Logging, unknown destinations and the autonomous forward
  // ---------------------------------------------------------------------------

  /** The node-not-found nudge, sent only when the envelope comes from the conduit. */
  function ConduitNudges(msg: Json, ctx: Context): seq<Dispatch> {
    if Section(msg, "header", "origin_node") == Str(Conduit) then
      [Dispatch(Str(Conduit), Generated(
         NodeNotFoundNudge(Section(msg, "header", "destination_node"), Section(msg, "trace", "thread_id"),
                           Section(msg, "header", "message_id")),
         ctx.clock, ctx.primary))]
    else []
  }

  /**
   The routing block of an envelope for an unregistered destination logs it
   and returns; a destination that cannot be a property key throws at the
   registry lookup, after the append.
   */
  lemma UnknownDestinationBlock(msg: Json, nodeId: Json, w: World, ctx: Context, delivered: Dispatch -> bool)
    requires Plain(msg) && !AuditorApproves(msg, nodeId) && !Nullish(Header(msg))
    requires !Registered(w.registry, Section(msg, "header", "destination_node"))
    requires AllDelivered(delivered)
    ensures Printable(Section(msg, "header", "destination_node")) ==>
              RouteBlock(Parsed(msg), nodeId, w, ctx, delivered)
              == Block(Return(UnknownNodeNudged(Section(msg, "header", "destination_node"))), w.log + [msg], w.cooldowns,
                       ConduitNudges(msg, ctx))
    ensures !Printable(Section(msg, "header", "destination_node")) ==>
              RouteBlock(Parsed(msg), nodeId, w, ctx, delivered) == Block(Threw, w.log + [msg], w.cooldowns, [])
  {
    UnapprovedBlock(msg, nodeId, w, ctx, delivered);
    if Printable(Section(msg, "header", "destination_node")) && Section(msg, "header", "origin_node") == Str(Conduit) {
      assert delivered(ConduitNudges(msg, ctx)[0]);
      assert [] + ConduitNudges(msg, ctx) == ConduitNudges(msg, ctx);
    }
  }

  /**
   An envelope for an unregistered destination is logged and answered with
   `unknown_node_nudged`; the conduit, and only the conduit, is sent a
   node-not-found nudge about it. A destination that cannot be a property
   key is logged and demerited instead.
   */
  lemma UnknownDestination(reply: string, msg: Json, nodeId: Json, w: World,
                           ctx: Context, delivered: Dispatch -> bool)
    requires Plain(msg) && !AuditorApproves(msg, nodeId) && !Nullish(Header(msg))
    requires !Registered(w.registry, Section(msg, "header", "destination_node"))
    requires AllDelivered(delivered)
    ensures Printable(Section(msg, "header", "destination_node")) ==>
              Answer(Parsed(msg), reply, nodeId, w, ctx, delivered)
              == Outcome(UnknownNodeNudged(Section(msg, "header", "destination_node")), ConduitNudges(msg, ctx),
                         w.log + [msg], w.cooldowns)
    ensures !Printable(Section(msg, "header", "destination_node")) ==>
              Answer(Parsed(msg), reply, nodeId, w, ctx, delivered)
              == Outcome(ResponseGenerated(reply), [DemeritDispatch(nodeId, ctx)], w.log + [msg], w.cooldowns)
    ensures Section(msg, "header", "origin_node") == Str(Conduit) ==>
              ConduitNudges(msg, ctx) == [Dispatch(Str(Conduit), Generated(
                NodeNotFoundNudge(Section(msg, "header", "destination_node"), Section(msg, "trace", "thread_id"),
                                  Section(msg, "header", "message_id")),
                ctx.clock, ctx.primary))]
    ensures Section(msg, "header", "origin_node") != Str(Conduit) ==> ConduitNudges(msg, ctx) == []
  {
    UnknownDestinationBlock(msg, nodeId, w, ctx, delivered);
    if !Printable(Section(msg, "header", "destination_node")) {
      ThrownBlockDemerited(Parsed(msg), reply, nodeId, w, ctx, delivered, w.log + [msg]);
    }
  }

  /**
   An envelope without a header is still logged, but the unknown-destination
   rule then reads `header.origin_node` and throws: the envelope ends up both
   in the log and demerited.
   */
  lemma HeaderlessLoggedAndDemerited(reply: string, msg: Json, nodeId: Json, w: World,
                                     ctx: Context, delivered: Dispatch -> bool)
    requires Plain(msg) && !AuditorApproves(msg, nodeId) && Nullish(Header(msg))
    requires !Registered(w.registry, Undefined)
    requires AllDelivered(delivered)
    ensures Answer(Parsed(msg), reply, nodeId, w, ctx, delivered)
            == Outcome(ResponseGenerated(reply), [DemeritDispatch(nodeId, ctx)], w.log + [msg], w.cooldowns)
  {
    assert Section(msg, "header", "destination_node") == Undefined;
    UnapprovedBlock(msg, nodeId, w, ctx, delivered);
    assert RouteBlock(Parsed(msg), nodeId, w, ctx, delivered) == Block(Threw, w.log + [msg], w.cooldowns, []);
    ThrownBlockDemerited(Parsed(msg), reply, nodeId, w, ctx, delivered, w.log + [msg]);
  }

  /**
   An envelope for a registered destination is logged and answered with the
   raw reply; it is forwarded to that destination exactly when autonomous
   mode is on, the destination is not the translator, and the forward's
   console line can be written (the envelope has a header, and its id can
   be converted to text). Otherwise that console line throws and the
   envelope is demerited instead. A destination that cannot be a property
   key is demerited at the registry lookup.
   */
  lemma ForwardWhenRegistered(reply: string, msg: Json, nodeId: Json, w: World,
                              ctx: Context, delivered: Dispatch -> bool)
    requires Plain(msg) && !AuditorApproves(msg, nodeId)
    requires Registered(w.registry, Section(msg, "header", "destination_node"))
    requires AllDelivered(delivered)
    ensures var o := Answer(Parsed(msg), reply, nodeId, w, ctx, delivered);
            var destination := Section(msg, "header", "destination_node");
            var forward := w.autonomous && !StrictEquals(destination, Str(Translator));
            && o.status == ResponseGenerated(reply)
            && o.log == w.log + [msg]
            && (o.dispatches == [Dispatch(destination, Verbatim(msg))] <==> Printable(destination) && forward && ForwardLogs(msg))
            && (o.dispatches == [DemeritDispatch(nodeId, ctx)] <==>
                  !Printable(destination) || (forward && !ForwardLogs(msg)))
            && (o.dispatches == [] <==> Printable(destination) && !forward)
  {
    var destination := Section(msg, "header", "destination_node");
    UnapprovedBlock(msg, nodeId, w, ctx, delivered);
    if !Printable(destination) || (w.autonomous && !StrictEquals(destination, Str(Translator)) && !ForwardLogs(msg)) {
      assert RouteBlock(Parsed(msg), nodeId, w, ctx, delivered) == Block(Threw, w.log + [msg], w.cooldowns, []);
      ThrownBlockDemerited(Parsed(msg), reply, nodeId, w, ctx, delivered, w.log + [msg]);
    } else if w.autonomous && !StrictEquals(destination, Str(Translator)) {
      assert delivered(Dispatch(destination, Verbatim(msg)));
    }
  }

  /**
   The translator guards compare the destination with `===`, while the
   registry and the receiving handler convert it to a property key. An array
   holding the translator's id passes both guards, and the envelope is
   forwarded to an id that names the translator once converted.
   */
  lemma ArrayDestinationReachesTranslator(reply: string, msg: Json, nodeId: Json, w: World,
                                          ctx: Context, delivered: Dispatch -> bool)
    requires Plain(msg) && !AuditorApproves(msg, nodeId) && !Nullish(Header(msg))
    requires Section(msg, "header", "destination_node") == Arr([Str(Translator)])
    requires Translator in w.registry && w.autonomous
    requires AllDelivered(delivered)
    ensures ForwardLogs(msg) ==>
              Answer(Parsed(msg), reply, nodeId, w, ctx, delivered).dispatches
              == [Dispatch(Arr([Str(Translator)]), Verbatim(msg))]
    ensures ToString(Arr([Str(Translator)])) == Translator
  {
    var destination := Arr([Str(Translator)]);
    assert ToString(destination) == Translator by {
      assert JoinFrom(destination, 1) == "";
      assert JoinFrom(destination, 0) == "" + Translator + "";
    }
    assert Printable(destination) by {
      assert Printable(destination.items[0]);
    }
    assert !StrictEquals(destination, Str(Translator));
    ForwardWhenRegistered(reply, msg, nodeId, w, ctx, delivered);
  }

  // ---------------------------------------------------------------------------
  // The exception path
  // ---------------------------------------------------------------------------

  /**
   A reply that does not parse is answered with the raw reply after the
   auditor is sent a demerit; nothing is logged. If the demerit cannot be
   delivered either, the handler answers 500.
   */
  lemma UnparseableDemerited(reply: string, nodeId: Json, w: World, ctx: Context,
                             delivered: Dispatch -> bool)
    ensures var o := Answer(Unparseable, reply, nodeId, w, ctx, delivered);
            && o.dispatches == [DemeritDispatch(nodeId, ctx)]
            && o.log == w.log && o.cooldowns == w.cooldowns
            && (o.status == ResponseGenerated(reply) <==> delivered(DemeritDispatch(nodeId, ctx)))
            && (o.status == UpstreamFailure <==> !delivered(DemeritDispatch(nodeId, ctx)))
  {
  }

  /** `null` parses, but reading its header throws: it is demerited like a parse failure. */
  lemma NullReplyDemerited(reply: string, nodeId: Json, w: World, ctx: Context,
                           delivered: Dispatch -> bool)
    requires AllDelivered(delivered)
    ensures Answer(Parsed(Null), reply, nodeId, w, ctx, delivered)
            == Outcome(ResponseGenerated(reply), [DemeritDispatch(nodeId, ctx)], w.log, w.cooldowns)
  {
    ThrownBlockDemerited(Parsed(Null), reply, nodeId, w, ctx, delivered, w.log);
  }

  /** An `intent.action` that is neither missing nor a string has no `toLowerCase`, and the call throws. */
  lemma NonStringActionDemerited(reply: string, msg: Json, nodeId: Json, w: World,
                                 ctx: Context, delivered: Dispatch -> bool)
    requires !Nullish(msg) && !IsInit(msg)
    requires !Nullish(Section(msg, "intent", "action")) && !Section(msg, "intent", "action").Str?
    requires AllDelivered(delivered)
    ensures Answer(Parsed(msg), reply, nodeId, w, ctx, delivered)
            == Outcome(ResponseGenerated(reply), [DemeritDispatch(nodeId, ctx)], w.log, w.cooldowns)
  {
    assert AckGate(msg, nodeId, w, ctx, delivered) == Block(Threw, w.log, w.cooldowns, []);
    ThrownBlockDemerited(Parsed(msg), reply, nodeId, w, ctx, delivered, w.log);
  }

  /**
   The demerit of the exception path goes to the auditor, but its header
   claims to come from the auditor and names the producing node as its
   destination.
   */
  lemma DemeritEnvelopeHeader(nodeId: Json, ctx: Context)
    ensures DemeritDispatch(nodeId, ctx).nodeId == Str(Auditor)
    ensures Section(DemeritDispatch(nodeId, ctx).payload.Envelope(), "header", "origin_node") == Str(Auditor)
    ensures Section(DemeritDispatch(nodeId, ctx).payload.Envelope(), "header", "destination_node") == nodeId
    ensures Section(DemeritDispatch(nodeId, ctx).payload.Envelope(), "header", "message_type") == Str("demerit")
    ensures Section(DemeritDispatch(nodeId, ctx).payload.Envelope(), "trace", "parent_message_id") == Null
  {
    var e := RenderParseDemerit(nodeId, ctx.clock, ctx.fallback);
    assert DemeritDispatch(nodeId, ctx).payload.Envelope() == e;
  }
}

=== FILE: text.dfy ===
/**
 String helpers with the meaning JavaScript gives them: the white-space set
 shared by `String.prototype.trim` and the regular-expression class `\s`,
 trimming, prefix/suffix tests and substring search.
 */
module Text {

  /** WhiteSpace and LineTerminator code points of ECMAScript (the set `\s` and `trim` use). */
  predicate IsSpace(c: char) {
    var n := c as int;
    n == 0x09 || n == 0x0A || n == 0x0B || n == 0x0C || n == 0x0D || n == 0x20
    || n == 0xA0 || n == 0x1680 || (0x2000 <= n <= 0x200A) || n == 0x2028
    || n == 0x2029 || n == 0x202F || n == 0x205F || n == 0x3000 || n == 0xFEFF
  }

  /** The characters a regular-expression `.` does not match. */
  predicate IsLineTerminator(c: char) {
    var n := c as int;
    n == 0x0A || n == 0x0D || n == 0x2028 || n == 0x2029
  }

  predicate AllSpace(s: string) {
    forall i :: 0 <= i < |s| ==> IsSpace(s[i])
  }

  /** Neither end of `s` is white space. */
  predicate IsTrimmed(s: string) {
    s == [] || (!IsSpace(s[0]) && !IsSpace(s[|s| - 1]))
  }

  predicate StartsWith(s: string, prefix: string) {
    |prefix| <= |s| && s[..|prefix|] == prefix
  }

  predicate EndsWith(s: string, suffix: string) {
    |suffix| <= |s| && s[|s| - |suffix|..] == suffix
  }

  predicate Contains(s: string, pattern: string) {
    exists i :: 0 <= i <= |s| && StartsWith(s[i..], pattern)
  }

  /** `s.trimStart()`: the suffix left after the longest white-space prefix. */
  function TrimStart(s: string): (r: string)
    ensures |r| <= |s| && r == s[|s| - |r|..]
    ensures AllSpace(s[..|s| - |r|])
    ensures r == [] || !IsSpace(r[0])
  {
    if |s| > 0 && IsSpace(s[0]) then TrimStart(s[1..]) else s
  }

  /** `s.trimEnd()`: the prefix left after the longest white-space suffix. */
  function TrimEnd(s: string): (r: string)
    ensures |r| <= |s| && r == s[..|r|]
    ensures AllSpace(s[|r|..])
    ensures r == [] || !IsSpace(r[|r| - 1])
  {
    if |s| > 0 && IsSpace(s[|s| - 1]) then TrimEnd(s[..|s| - 1]) else s
  }

  /** `s.trim()`. */
  function Trim(s: string): (r: string)
    ensures IsTrimmed(r)
    ensures |r| <= |s|
  {
    var t := TrimStart(s);
    var r := TrimEnd(t);
    assert r == [] || !IsSpace(r[0]) by {
      if r != [] {
        assert r[0] == t[0];
      }
    }
    r
  }

  /** Trimming white space in front of text that starts with non-space leaves that text. */
  lemma {:induction false} TrimStartOf(w: string, t: string)
    requires AllSpace(w)
    requires t == [] || !IsSpace(t[0])
    ensures TrimStart(w + t) == t
  {
    if w != [] {
      assert (w + t)[1..] == w[1..] + t;
      TrimStartOf(w[1..], t);
    } else {
      assert w + t == t;
    }
  }

  /** Trimming white space after text that ends with non-space leaves that text. */
  lemma {:induction false} TrimEndOf(t: string, w: string)
    requires AllSpace(w)
    requires t == [] || !IsSpace(t[|t| - 1])
    ensures TrimEnd(t + w) == t
  {
    if w != [] {
      assert (t + w)[..|t + w| - 1] == t + w[..|w| - 1];
      TrimEndOf(t, w[..|w| - 1]);
    } else {
      assert t + w == t;
    }
  }

  /** `trim` removes exactly the white space around a trimmed body. */
  lemma TrimAround(w1: string, b: string, w2: string)
    requires AllSpace(w1) && AllSpace(w2) && IsTrimmed(b)
    ensures Trim(w1 + b + w2) == b
  {
    if b == [] {
      assert w1 + b + w2 == w1 + w2;
      assert AllSpace(w1 + w2);
      TrimStartOf(w1 + w2, []);
      assert w1 + w2 + [] == w1 + w2;
      TrimEndOf([], []);
    } else {
      assert w1 + b + w2 == w1 + (b + w2);
      TrimStartOf(w1, b + w2);
      TrimEndOf(b, w2);
    }
  }

  /** A trimmed string is its own trim. */
  lemma TrimOfTrimmed(s: string)
    requires IsTrimmed(s)
    ensures Trim(s) == s
  {
    TrimAround([], s, []);
    assert [] + s + [] == s;
  }

  /** Trimming twice is trimming once. */
  lemma TrimIdempotent(s: string)
    ensures Trim(Trim(s)) == Trim(s)
  {
    TrimOfTrimmed(Trim(s));
  }

  /**
   Lower-casing as far as it can produce the letters the relay searches for:
   ASCII capitals and the KELVIN SIGN (U+212A, which lower-cases to `k`). Every
   other character keeps its identity here; its real lower-case form is never
   one of `a`, `c`, `k`, so substring tests for those letters are unaffected.
   */
  function LowerChar(c: char): (r: char)
    ensures 'A' <= c <= 'Z' ==> r as int == c as int + 32
    ensures !('A' <= c <= 'Z') && c as int != 0x212A ==> r == c
  {
    if 'A' <= c <= 'Z' then (c as int + 32) as char
    else if c as int == 0x212A then 'k'
    else c
  }

  function Lower(s: string): (r: string)
    ensures |r| == |s|
    ensures forall i :: 0 <= i < |s| ==> r[i] == LowerChar(s[i])
  {
    seq(|s|, i requires 0 <= i < |s| => LowerChar(s[i]))
  }
}

=== FILE: tools.dfy ===
/**
 The registry tools (tools.js:4-37): mark every node pinged, list a summary
 of every node, and report one node.

 The registry is the relay's `nodeRegistry` object; only its own keys are
 modelled (see `Envelope.Registry`). Timestamps come from the environment:
 `stamp(k)` is the ISO time read while node `k` is visited, `clock` the one
 read by `echoNode`.
 */
module Tools {
  import opened Json
  import opened Envelope

  /** `{ ...node, last_ping, status: 'pinged' }`. */
  function Pinged(node: Node, time: string): Node {
    Node(node.fields["last_ping" := Str(time)]["status" := Str("pinged")])
  }

  /** A second ping overwrites both fields the first one wrote. */
  lemma PingedTwice(node: Node, t1: string, t2: string)
    ensures Pinged(Pinged(node, t1), t2) == Pinged(node, t2)
  {
    var a := Pinged(Pinged(node, t1), t2).fields;
    var b := Pinged(node, t2).fields;
    assert a.Keys == b.Keys;
    forall f | f in a
      ensures a[f] == b[f]
    {
    }
  }

  /**
   `after` is `before` with status "pinged" and last ping `time`: every
   other field is copied, and no field is dropped.
   */
  predicate PingOf(before: Node, after: Node, time: string) {
    && after.fields.Keys == before.fields.Keys + {"last_ping", "status"}
    && after.Status() == Str("pinged")
    && Lookup(after.fields, "last_ping") == Str(time)
    && forall f :: f in before.fields && f != "last_ping" && f != "status" ==> after.fields[f] == before.fields[f]
  }

  /** `cycleNodes(nodeRegistry)`: a new registry with every node pinged. */
  function CycleNodes(registry: Registry, stamp: string -> string): (r: Registry)
    ensures r.Keys == registry.Keys
    ensures forall k :: k in r ==> PingOf(registry[k], r[k], stamp(k))
  {
    map k | k in registry :: Pinged(registry[k], stamp(k))
  }

  /** One entry of `introspectRegistry`. */
  datatype Summary = Summary(nodeId: string, status: Json, assistantIdPresent: bool)

  function Summarize(nodeId: string, node: Node): Summary {
    Summary(nodeId, node.Status(), Truthy(node.AssistantId()))
  }

  /** The node ids a list of summaries covers. */
  function Ids(summaries: seq<Summary>): set<string> {
    set i | 0 <= i < |summaries| :: summaries[i].nodeId
  }

  /** The summary describes node `s.nodeId` of the registry as it is. */
  predicate Describes(s: Summary, registry: Registry) {
    s.nodeId in registry && s == Summarize(s.nodeId, registry[s.nodeId])
  }

  /** No node is summarised twice. */
  predicate Distinct(summaries: seq<Summary>) {
    forall i, j :: 0 <= i < j < |summaries| ==> summaries[i].nodeId != summaries[j].nodeId
  }

  lemma DistinctAppend(summaries: seq<Summary>, s: Summary)
    requires Distinct(summaries) && s.nodeId !in Ids(summaries)
    ensures Distinct(summaries + [s])
  {
    var t := summaries + [s];
    forall i, j | 0 <= i < j < |t|
      ensures t[i].nodeId != t[j].nodeId
    {
      assert summaries[i].nodeId in Ids(summaries);
    }
  }

  /** Distinct summaries cover as many ids as there are summaries. */
  lemma {:induction false} DistinctIdsSize(summaries: seq<Summary>)
    requires Distinct(summaries)
    ensures |Ids(summaries)| == |summaries|
  {
    if summaries != [] {
      var init := summaries[..|summaries| - 1];
      var last := summaries[|summaries| - 1];
      assert init + [last] == summaries;
      assert Distinct(init);
      DistinctIdsSize(init);
      IdsAppend(init, last);
      assert last.nodeId !in Ids(init);
    }
  }

  lemma IdsAppend(summaries: seq<Summary>, s: Summary)
    ensures Ids(summaries + [s]) == Ids(summaries) + {s.nodeId}
  {
    var t := summaries + [s];
    assert t[|summaries|].nodeId == s.nodeId;
    forall x | x in Ids(summaries)
      ensures x in Ids(t)
    {
      var i :| 0 <= i < |summaries| && summaries[i].nodeId == x;
      assert t[i].nodeId == x;
    }
  }

  /**
   The loop's progress: the summaries so far are distinct, describe their
   nodes, and together with the nodes still to visit cover the registry.
   */
  predicate Progress(registry: Registry, summaries: seq<Summary>, remaining: set<string>) {
    && remaining !! Ids(summaries)
    && remaining + Ids(summaries) == registry.Keys
    && (forall i :: 0 <= i < |summaries| ==> Describes(summaries[i], registry))
    && Distinct(summaries)
  }

  /** Summarizing one more node keeps the loop's progress. */
  lemma ProgressStep(registry: Registry, summaries: seq<Summary>, remaining: set<string>, k: string)
    requires Progress(registry, summaries, remaining) && k in remaining
    ensures Progress(registry, summaries + [Summarize(k, registry[k])], remaining - {k})
  {
    var s := Summarize(k, registry[k]);
    DistinctAppend(summaries, s);
    IdsAppend(summaries, s);
    var t := summaries + [s];
    forall i | 0 <= i < |t|
      ensures Describes(t[i], registry)
    {
      if i < |summaries| {
        assert t[i] == summaries[i];
      }
    }
  }

  /**
   `introspectRegistry(nodeRegistry)`: one summary per node. The order of
   `Object.entries` depends on insertion order, which a map does not keep,
   so any order is allowed here: the loop takes the keys one by one in
   whatever order it chooses.
   */
  method IntrospectRegistry(registry: Registry) returns (summaries: seq<Summary>)
    ensures Ids(summaries) == registry.Keys
    ensures |summaries| == |registry.Keys|
    ensures forall i :: 0 <= i < |summaries| ==> Describes(summaries[i], registry)
    ensures Distinct(summaries)
  {
    var remaining := registry.Keys;
    summaries := [];
    while remaining != {}
      invariant Progress(registry, summaries, remaining)
      decreases |remaining|
    {
      var k :| k in remaining;
      ProgressStep(registry, summaries, remaining, k);
      summaries := summaries + [Summarize(k, registry[k])];
      remaining := remaining - {k};
    }
    DistinctIdsSize(summaries);
  }

  /** What `echoNode` answers, or the TypeError it throws to its caller. */
  datatype Echo =
    | NotFound(error: string)
    | Found(nodeId: Json, status: Json, assistantIdPresent: bool, timestamp: string)
    | Throws

  /**
   `echoNode(nodeId, nodeRegistry)`. The id is used as a property key, so it
   goes through `String`, which throws on an id that cannot be converted to
   text.
   */
  function EchoNode(nodeId: Json, registry: Registry, clock: string): (r: Echo)
    ensures r.Throws? <==> !Printable(nodeId)
    ensures r.NotFound? <==> Printable(nodeId) && !Registered(registry, nodeId)
    ensures r.NotFound? ==> r.error == "Node '" + ToString(nodeId) + "' not found."
    ensures r.Found? ==> r.nodeId == nodeId && r.timestamp == clock
    ensures r.Found? ==> Summary(ToString(nodeId), r.status, r.assistantIdPresent)
                         == Summarize(ToString(nodeId), registry[ToString(nodeId)])
  {
    var key := ToString(nodeId);
    if !Printable(nodeId) then Throws
    else if key !in registry then NotFound("Node '" + key + "' not found.")
    else
      var node := registry[key];
      Found(nodeId, node.Status(), Truthy(node.AssistantId()), clock)
  }

  /** A cycled node is pinged and keeps its assistant. */
  lemma CycledNode(registry: Registry, stamp: string -> string, key: string)
    requires key in registry
    ensures key in CycleNodes(registry, stamp)
    ensures CycleNodes(registry, stamp)[key].Status() == Str("pinged")
    ensures CycleNodes(registry, stamp)[key].AssistantId() == registry[key].AssistantId()
  {
    assert CycleNodes(registry, stamp)[key] == Pinged(registry[key], stamp(key));
  }

  /** After a cycle, every node echoes as pinged, and the ids that echo are the same as before. */
  lemma EchoAfterCycle(nodeId: Json, registry: Registry, stamp: string -> string, clock: string)
    ensures EchoNode(nodeId, CycleNodes(registry, stamp), clock).Found? <==> EchoNode(nodeId, registry, clock).Found?
    ensures EchoNode(nodeId, CycleNodes(registry, stamp), clock).Found? ==>
              EchoNode(nodeId, CycleNodes(registry, stamp), clock).status == Str("pinged")
    ensures EchoNode(nodeId, CycleNodes(registry, stamp), clock).Found? ==>
              EchoNode(nodeId, CycleNodes(registry, stamp), clock).assistantIdPresent
              == EchoNode(nodeId, registry, clock).assistantIdPresent
  {
    var key := ToString(nodeId);
    if Printable(nodeId) && key in registry {
      CycledNode(registry, stamp, key);
    }
  }

  lemma CycleTwiceAt(registry: Registry, first: string -> string, second: string -> string, k: string)
    requires k in registry
    ensures CycleNodes(CycleNodes(registry, first), second)[k] == CycleNodes(registry, second)[k]
  {
    PingedTwice(registry[k], first(k), second(k));
  }

  /** Cycling twice is cycling once, with the timestamps of the second cycle. */
  lemma CycleTwice(registry: Registry, first: string -> string, second: string -> string)
    ensures CycleNodes(CycleNodes(registry, first), second).Keys == CycleNodes(registry, second).Keys
    ensures forall k :: k in registry ==> CycleNodes(CycleNodes(registry, first), second)[k] == CycleNodes(registry, second)[k]
  {
    forall k | k in registry
      ensures CycleNodes(CycleNodes(registry, first), second)[k] == CycleNodes(registry, second)[k]
    {
      CycleTwiceAt(registry, first, second, k);
    }
  }

  /** Every summary taken after a cycle reports the status "pinged". */
  method IntrospectAfterCycle(registry: Registry, stamp: string -> string) returns (summaries: seq<Summary>)
    ensures |summaries| == |registry.Keys|
    ensures Ids(summaries) == registry.Keys
    ensures forall i :: 0 <= i < |summaries| ==> summaries[i].status == Str("pinged")
  {
    var cycled := CycleNodes(registry, stamp);
    summaries := IntrospectRegistry(cycled);
  }
}

=== FILE: watch.dfy ===
/**
 The live log monitor (cloudMindRtWatch.js:12-44): every poll fetches the
 relay's whole message log, prints one line for each message it has not
 printed before, and remembers how far it got.

 Fetching is a parameter (`Fetch`); printing is the returned list of lines.
 The 1500 ms polling timer is left out: a run of the monitor is a sequence of
 polls.
 */
module Watch {
  import opened Json

  datatype Direction = FromHuman | ToHuman | BetweenNodes

  /** One printed line: the arrow it uses, and the id, endpoints and type it shows. */
  datatype Line = Line(direction: Direction, id: Json, from: Json, to: Json, kind: Json)

  /** `GET /messages`: the log, or a failure (network error or a non-2xx answer). */
  datatype Fetch = Fetched(messages: seq<Json>) | FetchFailed

  /** The state after a poll: the lines printed, and the new `lastSeen`. */
  datatype Poll = Poll(printed: seq<Line>, lastSeen: nat)

  /** `value || fallback`. */
  function Or(value: Json, fallback: Json): Json {
    if Truthy(value) then value else fallback
  }

  /** `header.key || fallback` on a header that is never nullish. */
  function Shown(header: Json, key: string, fallback: string): (r: Json)
    requires Truthy(header) && |fallback| > 0
    ensures Truthy(r)
    ensures Truthy(OptGet(header, key)) ==> r == OptGet(header, key)
    ensures !Truthy(OptGet(header, key)) ==> r == Str(fallback)
  {
    Or(Get(header, key).value, Str(fallback))
  }

  /**
   Whether the monitor can print a line for `msg`: reading `msg.header`
   throws on a null message, and the template literal throws on a shown
   field that does not convert to a string. A falsy field is shown as its
   fallback, and every falsy value is printable.
   */
  predicate Shows(msg: Json) {
    && !Nullish(msg)
    && Printable(OptGet(OptGet(msg, "header"), "origin_node"))
    && Printable(OptGet(OptGet(msg, "header"), "destination_node"))
    && Printable(OptGet(OptGet(msg, "header"), "message_type"))
    && Printable(OptGet(OptGet(msg, "header"), "message_id"))
  }

  /**
   The line for one message. `msg.header || {}` reads `header` of the message
   itself, so a null message throws; a missing header shows every field as
   its fallback; a shown field that is an object with its own `toString` key
   makes the template literal throw.
   */
  function Describe(msg: Json): (r: Eval<Line>)
    ensures r.TypeError? <==> !Shows(msg)
    ensures r.Value? ==> Truthy(r.value.id) && Truthy(r.value.from) && Truthy(r.value.to) && Truthy(r.value.kind)
    ensures r.Value? ==> (r.value.direction == FromHuman <==> r.value.from == Str("human"))
    ensures r.Value? ==> (r.value.direction == ToHuman <==> r.value.from != Str("human") && r.value.to == Str("human"))
    ensures r.Value? && !Truthy(OptGet(msg, "header")) ==>
              r.value == Line(BetweenNodes, Str("???"), Str("unknown"), Str("unknown"), Str("unknown"))
    ensures r.Value? && Truthy(OptGet(msg, "header")) ==>
              && r.value.from == Shown(OptGet(msg, "header"), "origin_node", "unknown")
              && r.value.to == Shown(OptGet(msg, "header"), "destination_node", "unknown")
              && r.value.kind == Shown(OptGet(msg, "header"), "message_type", "unknown")
              && r.value.id == Shown(OptGet(msg, "header"), "message_id", "???")
  {
    match Get(msg, "header")
    case TypeError => TypeError
    case Value(h) =>
      var header := Or(h, Obj(map[]));
      var from := Shown(header, "origin_node", "unknown");
      var to := Shown(header, "destination_node", "unknown");
      var kind := Shown(header, "message_type", "unknown");
      var id := Shown(header, "message_id", "???");
      var direction :=
        if StrictEquals(from, Str("human")) then FromHuman
        else if StrictEquals(to, Str("human")) then ToHuman
        else BetweenNodes;
      if Printable(id) && Printable(from) && Printable(to) && Printable(kind) then
        Value(Line(direction, id, from, to, kind))
      else
        TypeError
  }

  /**
   `newMessages.forEach(...)`: lines are printed one by one until a message
   throws; the flag says whether one did.
   */
  function DescribeAll(ms: seq<Json>): (r: (seq<Line>, bool))
    ensures |r.0| <= |ms|
    ensures !r.1 ==> |r.0| == |ms|
    ensures r.1 ==> |r.0| < |ms|
  {
    if ms == [] then ([], false)
    else
      match Describe(ms[0])
      case TypeError => ([], true)
      case Value(line) =>
        var rest := DescribeAll(ms[1..]);
        ([line] + rest.0, rest.1)
  }

  /**
   What `forEach` prints: the lines of a prefix of the messages, and it stops
   early exactly when some message does not show, at the first such message.
   */
  lemma DescribeAllShape(ms: seq<Json>)
    ensures var r := DescribeAll(ms);
            && (forall k :: 0 <= k < |r.0| ==> Describe(ms[k]) == Value(r.0[k]))
            && (!r.1 <==> AllShow(ms))
            && (r.1 ==> !Shows(ms[|r.0|]))
  {
    DescribeAllPrefix(ms);
    DescribeAllStops(ms);
  }

  /** The printed lines are those of the first messages, in order. */
  lemma {:induction false} DescribeAllPrefix(ms: seq<Json>)
    ensures var r := DescribeAll(ms);
            forall k :: 0 <= k < |r.0| ==> Describe(ms[k]) == Value(r.0[k])
  {
    if ms != [] && Describe(ms[0]).Value? {
      var rest := DescribeAll(ms[1..]);
      var r := DescribeAll(ms);
      assert r.0 == [Describe(ms[0]).value] + rest.0;
      DescribeAllPrefix(ms[1..]);
      forall k | 1 <= k < |r.0|
        ensures Describe(ms[k]) == Value(r.0[k])
      {
        assert ms[k] == ms[1..][k - 1] && r.0[k] == rest.0[k - 1];
      }
    }
  }

  /** Printing stops early exactly when some message does not show, and it stops at one. */
  lemma {:induction false} DescribeAllStops(ms: seq<Json>)
    ensures var r := DescribeAll(ms);
            && (!r.1 <==> AllShow(ms))
            && (r.1 ==> !Shows(ms[|r.0|]))
  {
    if ms != [] {
      AllShowCons(ms);
      if Describe(ms[0]).Value? {
        var rest := DescribeAll(ms[1..]);
        assert DescribeAll(ms) == ([Describe(ms[0]).value] + rest.0, rest.1);
        DescribeAllStops(ms[1..]);
        assert rest.1 ==> ms[1 + |rest.0|] == ms[1..][|rest.0|];
      }
    }
  }

  /** Every message shows exactly when the first does and every later one does. */
  lemma AllShowCons(ms: seq<Json>)
    requires ms != []
    ensures forall k :: 1 <= k < |ms| ==> ms[k] == ms[1..][k - 1]
    ensures AllShow(ms) <==> Shows(ms[0]) && AllShow(ms[1..])
  {
    assert forall k :: 1 <= k < |ms| ==> ms[k] == ms[1..][k - 1];
  }

  /** `messages.slice(lastSeen)`: empty when the log is shorter than what was seen. */
  function Unseen(ms: seq<Json>, lastSeen: nat): seq<Json> {
    if lastSeen <= |ms| then ms[lastSeen..] else []
  }

  /**
   One `pollMessages()`. `lastSeen` becomes the log's length only when every
   new message was printed; a failed fetch or a message that throws leaves it
   where it was.
   */
  function PollMessages(lastSeen: nat, fetch: Fetch): (r: Poll)
    ensures fetch.FetchFailed? ==> r == Poll([], lastSeen)
    ensures fetch.Fetched? && lastSeen <= |fetch.messages| ==> |r.printed| <= |fetch.messages| - lastSeen
    ensures fetch.Fetched? && lastSeen <= |fetch.messages| ==>
              forall k :: 0 <= k < |r.printed| ==> Describe(fetch.messages[lastSeen + k]) == Value(r.printed[k])
    ensures fetch.Fetched? && (forall k :: lastSeen <= k < |fetch.messages| ==> Shows(fetch.messages[k])) ==>
              r.lastSeen == |fetch.messages|
    ensures fetch.Fetched? && (exists k :: lastSeen <= k < |fetch.messages| && !Shows(fetch.messages[k])) ==>
              r.lastSeen == lastSeen
  {
    match fetch
    case FetchFailed => Poll([], lastSeen)
    case Fetched(ms) =>
      var unseen := Unseen(ms, lastSeen);
      var (lines, failed) := DescribeAll(unseen);
      DescribeAllShape(unseen);
      assert lastSeen <= |ms| ==> forall k :: lastSeen <= k < |ms| ==> ms[k] == unseen[k - lastSeen];
      if failed then Poll(lines, lastSeen) else Poll(lines, |ms|)
  }

  /**
   A message whose `message_id` is an object with its own `toString` key
   throws in the template literal: the poll prints nothing and keeps its
   cursor, so every later poll stops at the same message again.
   */
  lemma ToStringKeyStalls(seen: nat, ms: seq<Json>)
    requires seen < |ms|
    requires ms[seen] == Obj(map["header" := Obj(map["message_id" := Obj(map["toString" := Str("x")])])])
    ensures PollMessages(seen, Fetched(ms)) == Poll([], seen)
  {
    assert !Shows(ms[seen]);
    assert Unseen(ms, seen)[0] == ms[seen];
  }

  // ---------------------------------------------------------------------------
  // A run of polls
  // ---------------------------------------------------------------------------

  /** `f` applied to every element, in order. */
  function MapSeq<A, B>(s: seq<A>, f: A --> B): seq<B>
    requires forall k :: 0 <= k < |s| ==> f.requires(s[k])
  {
    if s == [] then [] else [f(s[0])] + MapSeq(s[1..], f)
  }

  lemma {:induction false} MapSeqAppend<A, B>(a: seq<A>, b: seq<A>, f: A --> B)
    requires forall k :: 0 <= k < |a| ==> f.requires(a[k])
    requires forall k :: 0 <= k < |b| ==> f.requires(b[k])
    ensures forall k :: 0 <= k < |a + b| ==> f.requires((a + b)[k])
    ensures MapSeq(a + b, f) == MapSeq(a, f) + MapSeq(b, f)
    decreases |a|
  {
    assert forall k :: 0 <= k < |a + b| ==> (a + b)[k] == if k < |a| then a[k] else b[k - |a|];
    if a == [] {
      assert a + b == b;
    } else {
      assert (a + b)[1..] == a[1..] + b;
      MapSeqAppend(a[1..], b, f);
    }
  }

  /** The line of a message that describes without throwing. */
  function LineOf(msg: Json): Line
    requires Shows(msg)
  {
    Describe(msg).value
  }

  /** The printed lines of a list of messages that all describe without throwing. */
  function Lines(ms: seq<Json>): seq<Line>
    requires AllShow(ms)
  {
    MapSeq(ms, LineOf)
  }

  /** When every message shows, `forEach` prints every line and nothing throws. */
  lemma {:induction false} DescribeAllLines(ms: seq<Json>)
    requires AllShow(ms)
    ensures DescribeAll(ms) == (Lines(ms), false)
  {
    if ms != [] {
      assert Shows(ms[0]);
      assert AllShow(ms[1..]) by {
        assert forall k :: 0 <= k < |ms| - 1 ==> ms[1..][k] == ms[k + 1];
      }
      DescribeAllLines(ms[1..]);
    }
  }

  /** Polls one after another, from `lastSeen`: everything printed, and where the monitor ends up. */
  function Polls(lastSeen: nat, fetches: seq<Fetch>): Poll
    decreases |fetches|
  {
    if fetches == [] then Poll([], lastSeen)
    else
      var first := PollMessages(lastSeen, fetches[0]);
      var rest := Polls(first.lastSeen, fetches[1..]);
      Poll(first.printed + rest.printed, rest.lastSeen)
  }

  /** Every message of `ms` can be printed. */
  predicate AllShow(ms: seq<Json>) {
    forall k :: 0 <= k < |ms| ==> Shows(ms[k])
  }

  /**
   The relay's log only grows by appending: every fetched log extends the
   one fetched before it (or `seen`, for the first), and holds only messages
   the monitor can print.
   */
  predicate Grows(seen: seq<Json>, fetches: seq<Fetch>)
    decreases |fetches|
  {
    fetches == []
    || match fetches[0]
       case FetchFailed => Grows(seen, fetches[1..])
       case Fetched(ms) => seen <= ms && AllShow(ms) && Grows(ms, fetches[1..])
  }

  /** The last log fetched, or `seen` if no fetch succeeded. */
  function Latest(seen: seq<Json>, fetches: seq<Fetch>): seq<Json>
    decreases |fetches|
  {
    if fetches == [] then seen
    else match fetches[0]
      case FetchFailed => Latest(seen, fetches[1..])
      case Fetched(ms) => Latest(ms, fetches[1..])
  }

  lemma {:induction false} LatestExtends(seen: seq<Json>, fetches: seq<Fetch>)
    requires Grows(seen, fetches)
    ensures seen <= Latest(seen, fetches)
    ensures AllShow(seen) ==> AllShow(Latest(seen, fetches))
    decreases |fetches|
  {
    if fetches != [] {
      match fetches[0]
      case FetchFailed => LatestExtends(seen, fetches[1..]);
      case Fetched(ms) => LatestExtends(ms, fetches[1..]);
    }
  }

  lemma LinesAppend(a: seq<Json>, b: seq<Json>)
    requires AllShow(a) && AllShow(b)
    ensures AllShow(a + b)
    ensures Lines(a + b) == Lines(a) + Lines(b)
  {
    MapSeqAppend(a, b, LineOf);
  }

  /** A poll of a log that extends what was seen prints the new messages' lines and moves to its end. */
  lemma PollGrown(seen: seq<Json>, ms: seq<Json>)
    requires seen <= ms && AllShow(ms)
    ensures AllShow(ms[|seen|..])
    ensures PollMessages(|seen|, Fetched(ms)) == Poll(Lines(ms[|seen|..]), |ms|)
  {
    assert forall k :: 0 <= k < |ms| - |seen| ==> ms[|seen|..][k] == ms[|seen| + k];
    DescribeAllLines(ms[|seen|..]);
  }

  /**
   Over an append-only log, a run of polls started at the length of the log
   already seen prints every later message exactly once, in log order, and
   ends with `lastSeen` at the length of the last log fetched.
   */
  lemma {:induction false} PollsPrintEachOnce(seen: seq<Json>, fetches: seq<Fetch>)
    requires AllShow(seen) && Grows(seen, fetches)
    ensures seen <= Latest(seen, fetches) && AllShow(Latest(seen, fetches))
    ensures AllShow(Latest(seen, fetches)[|seen|..])
    ensures Polls(|seen|, fetches) == Poll(Lines(Latest(seen, fetches)[|seen|..]), |Latest(seen, fetches)|)
    decreases |fetches|
  {
    LatestExtends(seen, fetches);
    var last := Latest(seen, fetches);
    AllShowSlice(last, |seen|);
    if fetches == [] {
      assert last[|seen|..] == [];
    } else {
      match fetches[0]
      case FetchFailed =>
        PollsPrintEachOnce(seen, fetches[1..]);
        assert Polls(|seen|, fetches).printed == [] + Polls(|seen|, fetches[1..]).printed;
      case Fetched(ms) =>
        PollsPrintEachOnce(ms, fetches[1..]);
        assert fetches == [Fetched(ms)] + fetches[1..];
        PollsAfterGrown(seen, ms, fetches[1..]);
    }
  }

  /** The step of `PollsPrintEachOnce` for a successful first fetch `ms`. */
  lemma PollsAfterGrown(seen: seq<Json>, ms: seq<Json>, later: seq<Fetch>)
    requires seen <= ms && AllShow(ms) && ms <= Latest(ms, later)
    requires AllShow(Latest(ms, later)[|seen|..]) && AllShow(Latest(ms, later)[|ms|..])
    requires Polls(|ms|, later) == Poll(Lines(Latest(ms, later)[|ms|..]), |Latest(ms, later)|)
    ensures Polls(|seen|, [Fetched(ms)] + later)
            == Poll(Lines(Latest(ms, later)[|seen|..]), |Latest(ms, later)|)
  {
    var last := Latest(ms, later);
    PollGrown(seen, ms);
    PollsCons(|seen|, Fetched(ms), later);
    LinesAppend(ms[|seen|..], last[|ms|..]);
    SliceSplit(ms, last, |seen|);
  }

  /** The tail of `b` from `i` is the tail of its prefix `a` from `i`, then the rest of `b`. */
  lemma SliceSplit<T>(a: seq<T>, b: seq<T>, i: nat)
    requires a <= b && i <= |a|
    ensures b[i..] == a[i..] + b[|a|..]
  {
    assert forall k :: 0 <= k < |b| - i ==> b[i..][k] == (a[i..] + b[|a|..])[k];
  }

  lemma PollsCons(lastSeen: nat, first: Fetch, later: seq<Fetch>)
    ensures Polls(lastSeen, [first] + later)
            == var p := PollMessages(lastSeen, first);
               Poll(p.printed + Polls(p.lastSeen, later).printed, Polls(p.lastSeen, later).lastSeen)
  {
    assert ([first] + later)[1..] == later;
  }

  lemma AllShowSlice(ms: seq<Json>, i: nat)
    requires AllShow(ms) && i <= |ms|
    ensures AllShow(ms[i..])
  {
    assert forall k :: 0 <= k < |ms| - i ==> ms[i..][k] == ms[i + k];
  }
}

=== FILE: wrappers.dfy ===
/** Optional values, used where the relay looks something up that may be missing. */
module Wrappers {

  datatype Option<+T> = None | Some(value: T)
}
